=== FILE: README.md ===
# MinIO file gateway: key derivation, range streaming and usage ledger

This project is a Dafny model of the core of a NestJS file gateway. The gateway stores uploads in a MinIO bucket, streams them back with optional HTTP byte ranges, and keeps a per-object usage ledger in a SQL table.

The model covers:

- **Key derivation** (`FileService`): the sanitised file name, the mimetype category, the `YYYY-MM-DD` date folder, and the object key `date/category/uuid-name`.
- **Range resolution** (`FileService.ResolveRange`, `FileService.PlanStream`): how a `Range` header becomes a whole or partial read. JavaScript's `parseInt`, NaN, the non-global `replace` and `split` are modelled (`JsNumber`, `JsText`).
- **Orchestration** (`FileService.UploadFile`, `FileService.GetFileStream`): methods over an object store (`ObjectStore.Store`) and a ledger (`AnalyticsService.Ledger`). Both are classes whose fields the methods update.
- **Controller** (`FileController`): the upload ceiling, the key taken from the request URL, the `inline`/`attachment` rule, and the headers and status written into an Express response (`FileController.Response`).
- **Ledger** (`AnalyticsEntity`, `AnalyticsService`): the `FileAnalytics` row with its defaults and unique `filename`, `trackUpload`, `trackDownload`, and the three read-only queries.

The ledger keeps its table as a sequence in id order, not a map. The sequence is needed because `getTopDownloads` must break ties somehow, and the model breaks them by insertion order.

JavaScript numbers are `JsNumber.Num`: an integer or NaN. `parseInt` gives NaN for a field with no digits, NaN then propagates through `+` and `-`, and `NaN >= size` is false.

## Behaviour worth knowing

- **Uploads are accepted on their declared mimetype.** The content is never inspected, and any type is accepted.
- **A start at or beyond the object's size serves the whole object.** The response is the full object with status 200 (`FileService.StartBeyondSize`).
- **`end` is taken as given.** It is neither clamped to the object nor checked against `start`. `bytes=900-2000` on a 1000-byte object asks the store for 1101 bytes and reports a `Content-Length` of 1101 (`FileService.EndNotClamped`).
- **Only a closed first range makes a multi-range header work.** If the first range is `a-b`, the header is read as that range (`FileService.MultiRangeUsesFirstRange`). If it is `a-`, the next field starts with `,`, so the end and the length are NaN (`FileService.MultiRangeOpenFirstRange`).
- **`bytes=-n` gives a NaN start.** NaN fails the `start >= size` test, so the read is partial with a NaN offset and length (`FileService.SuffixRangeHasNaNStart`).
- **A failed `trackUpload` fails the upload but leaves the object stored.** A duplicate key, for instance, is a server error after the put has succeeded (`FileService.UploadFile`).
- **The upload answers with `filename` and `url`.** `filename` is the full object key; `url` is `/file/download/` followed by the encoded key.
- **A download reporting NaN bytes is not counted.** `bytes=-n` tracks NaN bytes; the new bandwidth is NaN, SQLite binds it as `NULL`, the `NOT NULL` column rejects the save and the row keeps its count and bandwidth (`AnalyticsService.Downloaded`).
- **The size ceiling is strict.** The validator accepts a size strictly below 550 MiB.

## Model

| member | source | states |
|---|---|---|
| AnalyticsEntity.NewRow | src/analytics/analytics.entity.ts:20-30 | a new row holds the given upload facts, `downloadCount` 0, `bandwidthUsage` 0, no access time, and its creation time |
| AnalyticsService.Find | src/analytics/analytics.service.ts:27 | finds the first row with the key, or reports that no row has it |
| AnalyticsService.FindUnique | src/analytics/analytics.entity.ts:8-9 | under the unique constraint, the lookup of a row's key finds that row |
| AnalyticsService.Downloaded | src/analytics/analytics.service.ts:26-37 | a tracked download changes only the row with the key: count +1, bandwidth + bytes, access time set, upload facts kept; an unknown key, or a new bandwidth of NaN that the `NOT NULL` column rejects, changes nothing; numeric bandwidths stay numeric |
| AnalyticsService.Bumped | src/analytics/analytics.service.ts:29-31 | upload facts kept, exactly one more download, the bytes added to the bandwidth, the access time set to now; the bandwidth does not decrease for a non-negative byte count |
| AnalyticsService.DownloadNeverDecreases | src/analytics/analytics.service.ts:29-30 | counters never decrease, and bandwidth never decreases for non-negative byte counts |
| AnalyticsService.Replay | src/analytics/analytics.service.ts:26-37 | a sequence of downloads keeps the table's length and every row's upload facts |
| AnalyticsService.ReplayEffect | src/analytics/analytics.service.ts:28-31 | after any sequence of downloads, a numeric row's count has grown by its number of downloads with numeric bytes and its bandwidth by their bytes (a NaN download is rejected); its access time is set iff such a download happened or it was already set |
| AnalyticsService.ReplayKeepsUnique | src/analytics/analytics.entity.ts:8-9 | downloads keep the keys unique |
| AnalyticsService.RepeatedDownloads | src/analytics/analytics.service.ts:29-30 | K downloads of n bytes on a known key add K to its count and K·n to its bandwidth |
| AnalyticsService.RepeatedCounts | src/analytics/analytics.service.ts:29-30 | K downloads of one key count K and total K·n bytes |
| AnalyticsService.SizeSum | src/analytics/analytics.service.ts:41-44 | the sum is at least every row's size |
| AnalyticsService.BandwidthSum | src/analytics/analytics.service.ts:46-49 | the sum is a number exactly when every row's bandwidth is one; with no negative bandwidth it is non-negative and at least every row's bandwidth |
| AnalyticsService.OverviewOf | src/analytics/analytics.service.ts:39-56 | `totalFiles` is the row count; both sums are 0 on an empty table; the sums are non-negative when no bandwidth is negative |
| AnalyticsService.OverviewAfterUpload | src/analytics/analytics.service.ts:39-56 | an upload adds one file and its size to the overview and no bandwidth |
| AnalyticsService.OverviewAfterDownload | src/analytics/analytics.service.ts:39-56 | a download of n bytes on a known key adds n to the total bandwidth and changes nothing else |
| AnalyticsService.SumsAfterUpdate | src/analytics/analytics.service.ts:41-49 | replacing a row by one of the same size with n more bandwidth moves only the bandwidth sum, by n |
| AnalyticsService.InsertByDownloads | src/analytics/analytics.service.ts:60 | inserting into a list ordered by downloads keeps it ordered and adds exactly that row |
| AnalyticsService.SortByDownloads | src/analytics/analytics.service.ts:60 | the ordering is a permutation of the table, in non-increasing download order |
| AnalyticsService.TopDownloads | src/analytics/analytics.service.ts:58-63 | at most `limit` rows (all rows for a non-positive limit), in non-increasing download order, drawn from the table, none outranked by a row left out |
| AnalyticsService.Mimes | src/analytics/analytics.service.ts:69-71 | the distinct mimetypes of the table, each occurring in some row |
| AnalyticsService.SizeOfMime | src/analytics/analytics.service.ts:70 | one mimetype's total never exceeds the sum of all sizes |
| AnalyticsService.Totals | src/analytics/analytics.service.ts:70 | each group's total is the sum of sizes of the rows with its mimetype |
| AnalyticsService.StorageByMimeType | src/analytics/analytics.service.ts:65-73 | one group per distinct mimetype, exactly the mimetypes of the table, each with the sum of its rows' sizes |
| AnalyticsService.StorageTotalsMatchOverview | src/analytics/analytics.service.ts:39-73 | the per-mimetype totals add up to the overview's total size |
| AnalyticsService.TotalsOfMimes | src/analytics/analytics.service.ts:65-72 | the totals over the distinct mimetypes add up to the sum of all sizes |
| AnalyticsService.Ledger.TrackUpload | src/analytics/analytics.service.ts:15-24 | inserts one default row with the next id iff the key is new (the unique constraint fails otherwise), and the next id advances only then; keys stay unique |
| AnalyticsService.Ledger.TrackDownload | src/analytics/analytics.service.ts:26-37 | the table becomes `Downloaded` of the old table; ids, unique keys and the `NOT NULL` bandwidth column are kept |
| ObjectStore.MetaMap | src/file/file.service.ts:35-38 | the keys are exactly the lower-cased header names, and each holds the value of the last pair with that name |
| ObjectStore.LowerHeaderNames | src/file/file.service.ts:35-38 | `Content-Type` and `Original-Name` are reported back as `content-type` and `original-name` |
| ObjectStore.Store.Stat | src/file/file.service.ts:102 | the object's size and metadata, `NotFound` for an absent key, another error when stat fails |
| ObjectStore.Store.GetObject | src/file/file.service.ts:132-135 | a whole read of the object is served unless the key is absent or the read fails |
| ObjectStore.Store.GetPartialObject | src/file/file.service.ts:121-126 | a read of the given offset and length is served unless the key is absent or the read fails |
| ObjectStore.Store.PutObject | src/file/file.service.ts:41-47 | the object is stored or replaced with its size and metadata unless the put fails |
| FileService.ReplaceUnsafe | src/file/file.service.ts:20 | every character outside `[A-Za-z0-9.-]` becomes `-`, others are kept |
| FileService.Sanitize | src/file/file.service.ts:20 | same length, only `a-z0-9.-`, and characters already in that set are kept |
| FileService.SanitizeIdempotent | src/file/file.service.ts:20 | sanitising twice equals sanitising once |
| FileService.SanitizeHasNoSlash | src/file/file.service.ts:20 | a sanitised name has no `/` |
| FileService.Category | src/file/file.service.ts:66-72 | the category is one of images, videos, audio, documents, others |
| FileService.CategoryOfMedia | src/file/file.service.ts:67-69 | `image/png`, `video/mp4` and `audio/mpeg` go to images, videos and audio |
| FileService.CategoryOfDocuments | src/file/file.service.ts:66-72 | an `application/` type is a document when it is PDF or contains `word` or `document` (msword, the OpenXML word-processing type) |
| FileService.CategoryOfApplication | src/file/file.service.ts:66-72 | an `application/` type other than PDF with no `w` and no `d` (zip, json, octet-stream) is filed under others |
| FileService.CategoryFirstMatchWins | src/file/file.service.ts:66-72 | the first matching rule wins: `image/x-wordperfect` is an image |
| FileService.DateFolder | src/file/file.service.ts:27 | the folder is a prefix of the timestamp without `T`, ending at the timestamp's end or at its first `T` |
| FileService.ObjectKey | src/file/file.service.ts:23-33 | the key's length is the date's, the category's, the UUID's and the original name's plus three, since sanitising keeps the length |
| FileService.DateFolderOfIsoTimestamp | src/file/file.service.ts:27 | the folder of an ISO-8601 timestamp is its `YYYY-MM-DD` date |
| FileService.ObjectKeySegments | src/file/file.service.ts:23-33 | the key has exactly the three segments date, category and uuid-name, and its base name is uuid-name |
| FileService.ObjectKeyDeterminesUuid | src/file/file.service.ts:23-33 | equal keys from equal-length UUIDs have equal UUIDs and sanitised names |
| FileService.RangeFields | src/file/file.service.ts:109 | the fields contain no `-` and join back to the header without its first `bytes=` |
| FileService.ResolveRange | src/file/file.service.ts:108-119 | no header or an empty one serves the whole object; a partial window has length end-start+1 and a start that is NaN or in `[0, size)` |
| FileService.WindowOf | src/file/file.service.ts:110-119 | a partial window has length end-start+1, a start that is NaN or in `[0, size)`, and an end that is NaN or at least -1 |
| FileService.ClosedRange | src/file/file.service.ts:109-119 | `bytes=a-b` with a < size serves the window a..b of b-a+1 bytes, whatever follows b |
| FileService.MultiRangeUsesFirstRange | src/file/file.service.ts:109-111 | `bytes=0-10,20-30` serves bytes 0..10 |
| FileService.EndNotClamped | src/file/file.service.ts:111-119 | `bytes=900-2000` on 1000 bytes asks for 1101 bytes |
| FileService.OpenRange | src/file/file.service.ts:111 | `bytes=a-` serves a..size-1 |
| FileService.SingleFieldRange | src/file/file.service.ts:109-111 | `bytes=a` has no end field and serves a..size-1 |
| FileService.MultiRangeOpenFirstRange | src/file/file.service.ts:109-111 | `bytes=a-,…` gives the start a and a NaN end and length |
| FileService.StartBeyondSize | src/file/file.service.ts:113-117 | a start at or beyond the size serves the whole object |
| FileService.SuffixRangeHasNaNStart | src/file/file.service.ts:110-119 | `bytes=-n` gives a NaN start and a NaN length |
| FileService.ContentRange | src/file/file.service.ts:127 | the value starts with `bytes ` and ends with `/` and the object's size |
| FileService.PlanStream | src/file/file.service.ts:106-145 | the tracked bytes equal the reported size; `Content-Range` exists iff the read is partial; a whole read reports the object size; a partial read reports its length |
| FileService.PlanWithoutRange | src/file/file.service.ts:139-145 | without a header: a whole read, the object size reported and tracked, no `Content-Range` |
| FileService.PlanClosedRange | src/file/file.service.ts:118-129 | `bytes=a-b` with a < size: a read of (a, b-a+1), that size reported and tracked, `Content-Range: bytes a-b/size` |
| FileService.StoredMetadata | src/file/file.service.ts:35-38 | the stored metadata holds the declared type and the original name verbatim |
| FileService.ContentTypeOf | src/file/file.service.ts:151 | the content type is never empty |
| FileService.ContentTypeOfUpload | src/file/file.service.ts:35-38 | a stream reports the mimetype declared at upload, or `application/octet-stream` when it was empty |
| FileService.UploadFile | src/file/file.service.ts:16-64 | no file: nothing happens; otherwise the object is put under `ObjectKey` and only then tracked with that key and the unsanitised name; the returned filename is the key; a failed put or a duplicate key is a server error |
| FileService.GetFileStream | src/file/file.service.ts:100-162 | stat, then the read `PlanStream` chooses, then one `trackDownload` of the reported size; NotFound maps to not-found and other errors to a server error, with no read served and no ledger change |
| FileController.Disposition | src/file/file.controller.ts:125-136 | `inline` iff the type starts with `video/`, `audio/`, `image/` or `application/pdf`, else `attachment` |
| FileController.DispositionFollowsCategory | src/file/file.controller.ts:125-136 | inline types are exactly the image, video and audio categories plus PDF |
| FileController.UrlKey | src/file/file.controller.ts:88 | `undefined` when the URL lacks the marker; otherwise a part of the URL that does not contain the marker |
| FileController.UrlKeyOfStreamUrl | src/file/file.controller.ts:88-89 | a key without `stream/` is recovered whole from the URL |
| FileController.Response.Set | src/file/file.controller.ts:102-109 | the given headers are set over the earlier ones |
| FileController.Response.Status | src/file/file.controller.ts:112-114 | the status becomes the given code |
| FileController.StreamHeaders | src/file/file.controller.ts:102-109 | the five fixed headers are always present, and `Content-Range` is present iff the service's range is non-empty |
| FileController.StreamHeadersSet | src/file/file.controller.ts:102-109 | `Content-Range` is present iff the service gave a non-empty one, and then equals it; type, decimal length, disposition, `Accept-Ranges: bytes` and `nosniff` are always set |
| FileController.ContentLengthReadsBack | src/file/file.controller.ts:104 | `Content-Length` parses back to the reported size |
| FileController.DispositionNamesStoredFile | src/file/file.controller.ts:105 | the disposition names the key's last segment, uuid-name |
| FileController.Upload | src/file/file.controller.ts:29-41 | a missing file, or one of 550 MiB or more, is a bad request before the service runs; a file under the ceiling gets exactly the service's outcome: a server error when the put fails, else stored under its key, and then uploaded with a new ledger row iff the key is new |
| FileController.StreamFile | src/file/file.controller.ts:81-122 | an undecodable key is a server error; otherwise a failing stat or read is a server error, a missing object is not found, and else the planned read succeeds with the object's content type and the ledger row is bumped by the tracked bytes; on failure the response is untouched; on success the headers are set and the status is 206 iff `Content-Range` |
| JsNumber.ParseIntOfNumeral | src/file/file.service.ts:110-111 | `parseInt` reads a numeral back, whatever non-digit follows |
| JsNumber.ParseInt | src/file/file.service.ts:110-111 | a field without `-` never parses to a negative number; a field without digits, or one that starts with a character that is not white space, a sign or a digit, parses to NaN |
| JsNumber.NumToString | src/file/file.controller.ts:104 | printing an integer and parsing it gives the integer back |
| JsText.ReplaceFirst | src/file/file.service.ts:109 | without an occurrence the string is unchanged; with one, exactly one occurrence's length is replaced |
| JsText.ReplaceLeadingPrefix | src/file/file.service.ts:109 | removing the pattern from the front of `pattern + rest` gives `rest` |
| JsText.Lower | src/file/file.service.ts:20 | same length, each character lower-cased on its own |
| JsText.Split | src/file/file.service.ts:109 | a split has at least one part and no part contains the separator |
| JsText.JoinSplit | src/file/file.service.ts:109 | joining the parts with the separator gives back the input |
| JsText.Basename | src/file/file.controller.ts:105 | a base name has no `/` |
| JsText.BasenameOfJoin | src/file/file.controller.ts:105 | the base name of `dir/name` is `name` |

## Left out

- Byte contents and streams (`Stream`, `StreamableFile`). The model keeps only the read requested (whole, or offset and length) and the size reported.
- Logging (`Logger`). It has no effect on results.
- `deleteFile` and `getPresignedUrl` (src/file/file.service.ts:74-98). They are pass-throughs to the store with error wrapping.
- The presigned-url and delete routes (src/file/file.controller.ts:43-58). They are pass-throughs.
- The download route (src/file/file.controller.ts:60-78). It calls a `downloadFile` that the service does not define.
- The analytics controller, the MinIO client and bucket bootstrap, and the application and module wiring. These are I/O and framework set-up, so src/analytics/analytics.controller.ts, src/minio/minio-client.service.ts, src/main.ts and the module files are not part of this model.
- `uuidv4()` and `new Date()`. Randomness and the clock are parameters (`uuid`, `iso`, `now`).
- `encodeURIComponent` and `decodeURIComponent`. They are parameters; a decoding failure is `None`.
- Concurrency. The `trackDownload` calls that are not awaited run in sequence in the model, and the lost-update race of the read-modify-write is not modelled. A rejected `trackDownload` (a NaN bandwidth, see `AnalyticsService.Downloaded`) leaves the table unchanged; the unhandled promise rejection it causes is not modelled.
- The object store's state during a request. It does not change between `statObject` and the read that follows it.
- Ledger failures other than the unique constraint on `filename`.
- Number precision. Sizes and counters are unbounded integers, so JavaScript's loss of precision above 2^53 and SQLite's `bigint` round trip through strings are not modelled. 
- AnalyticsService.TopDownloads: rows with equal download counts stay in id order. The ORM leaves their order unspecified.
- AnalyticsService.TopDownloads: a NaN `limit` is not modelled; the limit is an integer.
- FileService.Sanitize: one `-` for each Dafny character. JavaScript's regular expression replaces each UTF-16 code unit, so a character outside the Basic Multilingual Plane becomes two `-`.
- JsText.Lower: lower-cases ASCII only. This is exact for sanitised names and the metadata header names, which are ASCII.
- FileController.Response: Express adds a `charset` to some `Content-Type` values and matches header names case-insensitively. The model sets the values as given, under fixed header names.

=== FILE: analytics_entity.dfy ===
/**
 * The `FileAnalytics` row: one per stored object, keyed by its object key
 * (`filename`, unique across the table), with the upload facts and the
 * download counters.
 */
module AnalyticsEntity {
  import opened Wrappers
  import opened JsNumber

  /** A clock reading, in milliseconds since the epoch. */
  type Time = int

  datatype FileAnalytics = FileAnalytics(
    id: nat,                       // generated primary key
    filename: string,              // the object key; unique
    originalName: string,
    mimetype: string,
    size: nat,
    uploadTime: Time,              // set by the database when the row is created
    downloadCount: nat,
    lastAccessTime: Option<Time>,  // nullable
    bandwidthUsage: Num)           // total bytes reported as transferred

  /**
   * The row the repository creates for an upload: the given facts, the
   * creation time, and the column defaults (no downloads, no bandwidth, no
   * access time).
   */
  function NewRow(id: nat, filename: string, originalName: string, mimetype: string, size: nat,
                  now: Time): (r: FileAnalytics)
    ensures r.downloadCount == 0 && r.bandwidthUsage == Int(0) && r.lastAccessTime == None
    ensures r.uploadTime == now && r.id == id
    ensures r.filename == filename && r.originalName == originalName
    ensures r.mimetype == mimetype && r.size == size
  {
    FileAnalytics(id, filename, originalName, mimetype, size, now, 0, None, Int(0))
  }

  /** The upload facts of a row, which no download changes. */
  predicate SameUpload(a: FileAnalytics, b: FileAnalytics) {
    a.id == b.id && a.filename == b.filename && a.originalName == b.originalName
    && a.mimetype == b.mimetype && a.size == b.size && a.uploadTime == b.uploadTime
  }

  /**
   * The `NOT NULL` constraint on `bandwidthUsage`: every row holds a number.
   * A save that would store NaN (bound as `NULL`) is rejected by the table.
   */
  predicate NumericBandwidths(rows: seq<FileAnalytics>) {
    forall i :: 0 <= i < |rows| ==> rows[i].bandwidthUsage.Int?
  }

  /** The uniqueness constraint on `filename`. */
  predicate UniqueFilenames(rows: seq<FileAnalytics>) {
    forall i, j :: 0 <= i < j < |rows| ==> rows[i].filename != rows[j].filename
  }
}

=== FILE: analytics_service.dfy ===
/**
 * The usage ledger: a table of `FileAnalytics` rows (in id order) with the
 * two writes the file gateway issues (`trackUpload`, `trackDownload`) and the
 * three read-only queries (`getOverview`, `getTopDownloads`,
 * `getStorageByMimeType`). The queries are functions of the table; the
 * writes are methods of `Ledger`, each specified by the table it leaves.
 */
module AnalyticsService {
  import opened Wrappers
  import opened JsNumber
  import opened AnalyticsEntity

  // ---------------------------------------------------------------------------
  // Lookup and the effect of one download on the table

  /** `findOne({ where: { filename } })`: the index of the first row with that key. */
  function Find(rows: seq<FileAnalytics>, filename: string): (r: Option<nat>)
    ensures r.Some? ==> r.value < |rows| && rows[r.value].filename == filename
    ensures r.Some? ==> forall j :: 0 <= j < r.value ==> rows[j].filename != filename
    ensures r.None? ==> forall j :: 0 <= j < |rows| ==> rows[j].filename != filename
  {
    if rows == [] then None
    else if rows[0].filename == filename then Some(0)
    else match Find(rows[1..], filename)
      case None => None
      case Some(k) => Some(k + 1)
  }

  /** Under the uniqueness constraint the row found is the only one with that key. */
  lemma FindUnique(rows: seq<FileAnalytics>, k: nat)
    requires UniqueFilenames(rows) && k < |rows|
    ensures Find(rows, rows[k].filename) == Some(k)
  {
  }

  /** The row after one tracked download: one more download, the bytes added, the access time set. */
  function Bumped(row: FileAnalytics, bytes: Num, now: Time): (r: FileAnalytics)
    ensures SameUpload(r, row)
    ensures r.downloadCount == row.downloadCount + 1
    ensures r.bandwidthUsage == Add(row.bandwidthUsage, bytes)
    ensures r.lastAccessTime == Some(now)
    ensures bytes.Int? && bytes.value >= 0 && row.bandwidthUsage.Int? ==>
      r.bandwidthUsage.Int? && r.bandwidthUsage.value >= row.bandwidthUsage.value
  {
    row.(downloadCount := row.downloadCount + 1,
         bandwidthUsage := Add(row.bandwidthUsage, bytes),
         lastAccessTime := Some(now))
  }

  /**
   * The table after `trackDownload(filename, bytes)` at time `now`. A new
   * bandwidth of NaN is bound as `NULL`, which the `NOT NULL` column rejects:
   * the save fails and the table is left as it was.
   */
  function Downloaded(rows: seq<FileAnalytics>, filename: string, bytes: Num, now: Time)
    : (r: seq<FileAnalytics>)
    ensures |r| == |rows|
    ensures forall i :: 0 <= i < |rows| ==> SameUpload(r[i], rows[i])
    ensures forall i :: 0 <= i < |rows| && rows[i].filename != filename ==> r[i] == rows[i]
    ensures forall i :: 0 <= i < |rows| && rows[i].bandwidthUsage.Int? ==> r[i].bandwidthUsage.Int?
    ensures Find(rows, filename).None? ==> r == rows
    ensures Find(rows, filename).Some? ==>
      var k := Find(rows, filename).value;
      if Add(rows[k].bandwidthUsage, bytes).NaN? then r == rows
      else
        && r[k].downloadCount == rows[k].downloadCount + 1
        && r[k].bandwidthUsage == Add(rows[k].bandwidthUsage, bytes)
        && r[k].lastAccessTime == Some(now)
  {
    match Find(rows, filename)
    case None => rows
    case Some(k) =>
      if Add(rows[k].bandwidthUsage, bytes).NaN? then rows
      else rows[k := Bumped(rows[k], bytes, now)]
  }

  /** Counters never go down, and the bandwidth never goes down when the bytes are not negative. */
  lemma DownloadNeverDecreases(rows: seq<FileAnalytics>, filename: string, n: nat, now: Time, i: nat)
    requires i < |rows| && rows[i].bandwidthUsage.Int?
    ensures Downloaded(rows, filename, Int(n), now)[i].downloadCount >= rows[i].downloadCount
    ensures Downloaded(rows, filename, Int(n), now)[i].bandwidthUsage.Int?
    ensures Downloaded(rows, filename, Int(n), now)[i].bandwidthUsage.value
            >= rows[i].bandwidthUsage.value
  {
  }

  // ---------------------------------------------------------------------------
  // Many downloads in sequence

  datatype Download = Download(filename: string, bytes: Num, at: Time)

  /** The table after the downloads `events`, tracked in order. */
  function Replay(rows: seq<FileAnalytics>, events: seq<Download>): (r: seq<FileAnalytics>)
    ensures |r| == |rows|
    ensures forall i :: 0 <= i < |rows| ==> SameUpload(r[i], rows[i])
  {
    if events == [] then rows
    else
      var e := events[|events| - 1];
      Downloaded(Replay(rows, events[..|events| - 1]), e.filename, e.bytes, e.at)
  }

  /** Whether `e` is a download of `filename` whose save a numeric row accepts. */
  predicate Saved(e: Download, filename: string) {
    e.filename == filename && e.bytes.Int?
  }

  /** How many of `events` are downloads of `filename` with a numeric byte count. */
  function CountFor(events: seq<Download>, filename: string): nat {
    if events == [] then 0
    else CountFor(events[..|events| - 1], filename)
         + (if Saved(events[|events| - 1], filename) then 1 else 0)
  }

  /** The bytes reported by the downloads counted by `CountFor`. */
  function BytesFor(events: seq<Download>, filename: string): int {
    if events == [] then 0
    else
      var e := events[|events| - 1];
      BytesFor(events[..|events| - 1], filename) + (if Saved(e, filename) then e.bytes.value else 0)
  }

  /**
   * After any sequence of tracked downloads, each row's count has grown by the
   * number of saved downloads of its key, its bandwidth by the bytes they
   * reported, and its access time is still absent exactly when none of them
   * was saved. A download reporting NaN bytes is rejected and changes nothing.
   * The row's bandwidth is a number, as the `NOT NULL` column guarantees.
   */
  lemma {:induction false} ReplayEffect(rows: seq<FileAnalytics>, events: seq<Download>, k: nat)
    requires UniqueFilenames(rows) && k < |rows| && rows[k].bandwidthUsage.Int?
    ensures Replay(rows, events)[k].downloadCount == rows[k].downloadCount + CountFor(events, rows[k].filename)
    ensures Replay(rows, events)[k].bandwidthUsage
            == Int(rows[k].bandwidthUsage.value + BytesFor(events, rows[k].filename))
    ensures Replay(rows, events)[k].lastAccessTime.None?
            <==> rows[k].lastAccessTime.None? && CountFor(events, rows[k].filename) == 0
    decreases |events|
  {
    if events != [] {
      var front := events[..|events| - 1];
      var e := events[|events| - 1];
      var mid := Replay(rows, front);
      ReplayEffect(rows, front, k);
      ReplayKeepsUnique(rows, front);
      var f := rows[k].filename;
      assert mid[k].filename == f;
      var after := Downloaded(mid, e.filename, e.bytes, e.at);
      assert Replay(rows, events) == after;
      if e.filename != f {
        assert after[k] == mid[k];
      } else {
        FindUnique(mid, k);
        if e.bytes.NaN? {
          assert after == mid;
        } else {
          assert after[k].downloadCount == mid[k].downloadCount + 1;
        }
      }
    }
  }

  lemma ReplayKeepsUnique(rows: seq<FileAnalytics>, events: seq<Download>)
    requires UniqueFilenames(rows)
    ensures UniqueFilenames(Replay(rows, events))
  {
    var r := Replay(rows, events);
    assert forall i :: 0 <= i < |rows| ==> r[i].filename == rows[i].filename;
  }

  /**
   * K downloads of `n` bytes each on an existing key raise its count by
   * exactly K and its bandwidth by exactly K * n.
   */
  lemma RepeatedDownloads(rows: seq<FileAnalytics>, k: nat, n: int, now: Time, times: nat)
    requires UniqueFilenames(rows) && k < |rows| && rows[k].bandwidthUsage.Int?
    ensures var after := Replay(rows, seq(times, _ => Download(rows[k].filename, Int(n), now)));
      && after[k].downloadCount == rows[k].downloadCount + times
      && after[k].bandwidthUsage == Int(rows[k].bandwidthUsage.value + times * n)
  {
    var events := seq(times, _ => Download(rows[k].filename, Int(n), now));
    RepeatedCounts(rows[k].filename, n, now, times);
    ReplayEffect(rows, events, k);
  }

  lemma {:induction false} RepeatedCounts(f: string, n: int, now: Time, times: nat)
    ensures CountFor(seq(times, _ => Download(f, Int(n), now)), f) == times
    ensures BytesFor(seq(times, _ => Download(f, Int(n), now)), f) == times * n
  {
    if times > 0 {
      var events := seq(times, _ => Download(f, Int(n), now));
      assert events[..times - 1] == seq(times - 1, _ => Download(f, Int(n), now));
      RepeatedCounts(f, n, now, times - 1);
      assert (times - 1) * n + n == times * n;
    }
  }

  // ---------------------------------------------------------------------------
  // getOverview

  datatype Overview = Overview(totalFiles: nat, totalSize: int, totalBandwidth: int)

  /** `SUM(size)` over the table. */
  function SizeSum(rows: seq<FileAnalytics>): (total: nat)
    ensures forall i :: 0 <= i < |rows| ==> rows[i].size <= total
  {
    if rows == [] then 0 else SizeSum(rows[..|rows| - 1]) + rows[|rows| - 1].size
  }

  /**
   * `SUM(bandwidthUsage)` over the table: a number exactly when every row
   * holds one, and then, when none is negative, a non-negative bound on each.
   */
  function BandwidthSum(rows: seq<FileAnalytics>): (total: Num)
    ensures total.Int? <==> NumericBandwidths(rows)
    ensures KnownBandwidths(rows) ==>
      && total.Int? && total.value >= 0
      && forall i :: 0 <= i < |rows| ==> rows[i].bandwidthUsage.value <= total.value
  {
    if rows == [] then Int(0)
    else Add(BandwidthSum(rows[..|rows| - 1]), rows[|rows| - 1].bandwidthUsage)
  }

  predicate KnownBandwidths(rows: seq<FileAnalytics>) {
    forall i :: 0 <= i < |rows| ==> rows[i].bandwidthUsage.Int? && rows[i].bandwidthUsage.value >= 0
  }

  /** `getOverview()`: the number of rows and the two sums, 0 for an empty table. */
  function OverviewOf(rows: seq<FileAnalytics>): (o: Overview)
    ensures o.totalFiles == |rows| && o.totalSize >= 0
    ensures rows == [] ==> o.totalSize == 0 && o.totalBandwidth == 0
    ensures KnownBandwidths(rows) ==> o.totalBandwidth >= 0
  {
    Overview(|rows|, SizeSum(rows), OrZero(BandwidthSum(rows)))
  }

  /** An upload adds one file and its size to the overview, and no bandwidth. */
  lemma OverviewAfterUpload(rows: seq<FileAnalytics>, row: FileAnalytics)
    requires row.bandwidthUsage == Int(0)
    ensures OverviewOf(rows + [row]).totalFiles == OverviewOf(rows).totalFiles + 1
    ensures OverviewOf(rows + [row]).totalSize == OverviewOf(rows).totalSize + row.size
    ensures OverviewOf(rows + [row]).totalBandwidth == OverviewOf(rows).totalBandwidth
  {
    assert (rows + [row])[..|rows|] == rows;
  }

  /**
   * A download of `n` bytes on an existing key adds exactly `n` to the total
   * bandwidth and leaves the file count and total size alone.
   */
  lemma OverviewAfterDownload(rows: seq<FileAnalytics>, filename: string, n: nat, now: Time)
    requires KnownBandwidths(rows) && Find(rows, filename).Some?
    ensures var after := OverviewOf(Downloaded(rows, filename, Int(n), now));
      && after.totalFiles == OverviewOf(rows).totalFiles
      && after.totalSize == OverviewOf(rows).totalSize
      && after.totalBandwidth == OverviewOf(rows).totalBandwidth + n
  {
    var k := Find(rows, filename).value;
    var after := Downloaded(rows, filename, Int(n), now);
    SumsAfterUpdate(rows, k, after[k], n);
    assert after == rows[k := after[k]];
  }

  /** Replacing one row by one of the same size with `n` more bandwidth moves only the bandwidth sum. */
  lemma {:induction false} SumsAfterUpdate(rows: seq<FileAnalytics>, k: nat, row: FileAnalytics, n: int)
    requires k < |rows| && NumericBandwidths(rows)
    requires row.size == rows[k].size
    requires row.bandwidthUsage == Int(rows[k].bandwidthUsage.value + n)
    ensures SizeSum(rows[k := row]) == SizeSum(rows)
    ensures BandwidthSum(rows[k := row]) == Add(BandwidthSum(rows), Int(n))
  {
    var updated := rows[k := row];
    var last := |rows| - 1;
    var front := rows[..last];
    assert NumericBandwidths(front);
    var sum := BandwidthSum(front);
    if k == last {
      assert updated[..last] == front;
      assert BandwidthSum(updated) == Add(sum, row.bandwidthUsage);
      assert BandwidthSum(rows) == Add(sum, rows[last].bandwidthUsage);
    } else {
      assert updated[..last] == front[k := row];
      SumsAfterUpdate(front, k, row, n);
      assert BandwidthSum(updated) == Add(Add(sum, Int(n)), rows[last].bandwidthUsage);
    }
  }

  // ---------------------------------------------------------------------------
  // getTopDownloads

  predicate ByDownloadsDesc(s: seq<FileAnalytics>) {
    forall i, j :: 0 <= i < j < |s| ==> s[i].downloadCount >= s[j].downloadCount
  }

  /** Inserts `x` before the first row with no more downloads than it has. */
  function InsertByDownloads(x: FileAnalytics, s: seq<FileAnalytics>): (r: seq<FileAnalytics>)
    requires ByDownloadsDesc(s)
    ensures |r| == |s| + 1 && ByDownloadsDesc(r)
    ensures multiset(r) == multiset(s) + multiset{x}
    ensures forall y :: y in r ==> y == x || y in s
  {
    if s == [] || x.downloadCount >= s[0].downloadCount then
      HeadBoundsSorted(x, s);
      [x] + s
    else
      var t := InsertByDownloads(x, s[1..]);
      assert s == [s[0]] + s[1..];
      HeadBoundsSorted(s[0], s[1..]);
      assert forall y :: y in t ==> y.downloadCount <= s[0].downloadCount;
      ConsSorted(s[0], t);
      assert multiset([s[0]] + t) == multiset{s[0]} + multiset(t);
      [s[0]] + t
  }

  /** In a sorted table a head with at least the first row's downloads has at least every row's. */
  lemma HeadBoundsSorted(h: FileAnalytics, s: seq<FileAnalytics>)
    requires ByDownloadsDesc(s)
    requires s == [] || h.downloadCount >= s[0].downloadCount
    ensures ByDownloadsDesc([h] + s)
    ensures forall y :: y in s ==> y.downloadCount <= h.downloadCount
  {
    forall y | y in s ensures y.downloadCount <= h.downloadCount {
      var j :| 0 <= j < |s| && s[j] == y;
      assert j == 0 || s[0].downloadCount >= s[j].downloadCount;
    }
    ConsSorted(h, s);
  }

  lemma ConsSorted(h: FileAnalytics, t: seq<FileAnalytics>)
    requires ByDownloadsDesc(t)
    requires forall y :: y in t ==> y.downloadCount <= h.downloadCount
    ensures ByDownloadsDesc([h] + t)
  {
    var r := [h] + t;
    forall i, j | 0 <= i < j < |r| ensures r[i].downloadCount >= r[j].downloadCount {
      assert r[j] == t[j - 1];
      if i > 0 {
        assert r[i] == t[i - 1];
      } else {
        assert t[j - 1] in t;
      }
    }
  }

  /**
   * The table ordered by `downloadCount` descending; rows with equal counts
   * keep their table order.
   */
  function SortByDownloads(rows: seq<FileAnalytics>): (r: seq<FileAnalytics>)
    ensures |r| == |rows| && ByDownloadsDesc(r)
    ensures multiset(r) == multiset(rows)
  {
    if rows == [] then []
    else
      assert rows == [rows[0]] + rows[1..];
      InsertByDownloads(rows[0], SortByDownloads(rows[1..]))
  }

  /**
   * `getTopDownloads(limit)`: `find({ order: { downloadCount: 'DESC' }, take: limit })`.
   * A `take` that is not positive is ignored, so every row is returned.
   */
  function TopDownloads(rows: seq<FileAnalytics>, limit: int): (top: seq<FileAnalytics>)
    ensures |top| == if 0 < limit < |rows| then limit else |rows|
    ensures ByDownloadsDesc(top)
    ensures multiset(top) <= multiset(rows)
    ensures forall x, y :: x in top && y in multiset(rows) - multiset(top)
              ==> y.downloadCount <= x.downloadCount
  {
    var sorted := SortByDownloads(rows);
    var n := if 0 < limit < |rows| then limit else |rows|;
    PrefixIsTop(rows, sorted, n);
    sorted[..n]
  }

  lemma PrefixIsTop(rows: seq<FileAnalytics>, sorted: seq<FileAnalytics>, n: nat)
    requires ByDownloadsDesc(sorted) && multiset(sorted) == multiset(rows) && n <= |sorted|
    ensures ByDownloadsDesc(sorted[..n])
    ensures multiset(sorted[..n]) <= multiset(rows)
    ensures forall x, y :: x in sorted[..n] && y in multiset(rows) - multiset(sorted[..n])
              ==> y.downloadCount <= x.downloadCount
  {
    var top, rest := sorted[..n], sorted[n..];
    forall i, j | 0 <= i < j < |top| ensures top[i].downloadCount >= top[j].downloadCount {
      assert top[i] == sorted[i] && top[j] == sorted[j];
    }
    assert sorted == top + rest;
    assert multiset(sorted) == multiset(top) + multiset(rest);
    assert multiset(rows) - multiset(top) == multiset(rest);
    PrefixOutranksRest(sorted, n);
  }

  /** In a list ordered by downloads, every row of a prefix has at least the downloads of every later row. */
  lemma PrefixOutranksRest(sorted: seq<FileAnalytics>, n: nat)
    requires ByDownloadsDesc(sorted) && n <= |sorted|
    ensures forall x, y :: x in sorted[..n] && y in multiset(sorted[n..]) ==> y.downloadCount <= x.downloadCount
  {
    forall x, y | x in sorted[..n] && y in multiset(sorted[n..])
      ensures y.downloadCount <= x.downloadCount
    {
      var i :| 0 <= i < n && sorted[..n][i] == x;
      var j :| 0 <= j < |sorted| - n && sorted[n..][j] == y;
      assert sorted[i] == x && sorted[n + j] == y;
    }
  }

  // ---------------------------------------------------------------------------
  // getStorageByMimeType

  datatype MimeTotal = MimeTotal(mimetype: string, totalSize: int)

  /** `SUM(size)` over the rows with mimetype `m`. */
  function SizeOfMime(rows: seq<FileAnalytics>, m: string): (total: nat)
    ensures total <= SizeSum(rows)
  {
    if rows == [] then 0
    else SizeOfMime(rows[..|rows| - 1], m) + (if rows[|rows| - 1].mimetype == m then rows[|rows| - 1].size else 0)
  }

  predicate Distinct(ms: seq<string>) {
    forall i, j :: 0 <= i < j < |ms| ==> ms[i] != ms[j]
  }

  /** The distinct mimetypes of the table, in order of first appearance. */
  function Mimes(rows: seq<FileAnalytics>): (ms: seq<string>)
    ensures Distinct(ms)
    ensures forall m :: m in ms <==> exists i :: 0 <= i < |rows| && rows[i].mimetype == m
  {
    if rows == [] then []
    else
      var front := Mimes(rows[..|rows| - 1]);
      var m := rows[|rows| - 1].mimetype;
      assert forall i :: 0 <= i < |rows| - 1 ==> rows[..|rows| - 1][i] == rows[i];
      if m in front then front else front + [m]
  }

  function Totals(rows: seq<FileAnalytics>, ms: seq<string>): (groups: seq<MimeTotal>)
    ensures |groups| == |ms|
    ensures forall i :: 0 <= i < |ms| ==> groups[i] == MimeTotal(ms[i], SizeOfMime(rows, ms[i]))
  {
    if ms == [] then []
    else Totals(rows, ms[..|ms| - 1]) + [MimeTotal(ms[|ms| - 1], SizeOfMime(rows, ms[|ms| - 1]))]
  }

  /**
   * `getStorageByMimeType()`: one group per distinct mimetype of the table
   * and no other, each holding the total size of the rows with that mimetype.
   */
  function StorageByMimeType(rows: seq<FileAnalytics>): (groups: seq<MimeTotal>)
    ensures forall i, j :: 0 <= i < j < |groups| ==> groups[i].mimetype != groups[j].mimetype
    ensures (set g | g in groups :: g.mimetype) == (set r | r in rows :: r.mimetype)
    ensures forall g :: g in groups ==> g.totalSize == SizeOfMime(rows, g.mimetype)
  {
    var ms := Mimes(rows);
    var groups := Totals(rows, ms);
    var named := set g | g in groups :: g.mimetype;
    var used := set r | r in rows :: r.mimetype;
    forall m | m in named ensures m in used {
      var g :| g in groups && g.mimetype == m;
      var i :| 0 <= i < |groups| && groups[i] == g;
      assert ms[i] == m;
      assert m in ms;
      var k :| 0 <= k < |rows| && rows[k].mimetype == m;
      assert rows[k] in rows;
    }
    forall m | m in used ensures m in named {
      var r :| r in rows && r.mimetype == m;
      var k :| 0 <= k < |rows| && rows[k] == r;
      assert m in ms;
      var i :| 0 <= i < |ms| && ms[i] == m;
      assert groups[i] in groups;
    }
    groups
  }

  function SumTotals(groups: seq<MimeTotal>): int {
    if groups == [] then 0 else SumTotals(groups[..|groups| - 1]) + groups[|groups| - 1].totalSize
  }

  /** The per-mimetype totals add up to the overview's total size. */
  lemma {:induction false} StorageTotalsMatchOverview(rows: seq<FileAnalytics>)
    ensures SumTotals(StorageByMimeType(rows)) == OverviewOf(rows).totalSize
  {
    TotalsOfMimes(rows);
  }

  lemma {:induction false} TotalsOfMimes(rows: seq<FileAnalytics>)
    ensures SumTotals(Totals(rows, Mimes(rows))) == SizeSum(rows)
    decreases |rows|
  {
    if rows != [] {
      var p := rows[..|rows| - 1];
      var x := rows[|rows| - 1];
      assert rows == p + [x];
      TotalsOfMimes(p);
      TotalsAfterRow(p, x, Mimes(p));
      if x.mimetype in Mimes(p) {
        assert Mimes(rows) == Mimes(p);
      } else {
        assert Mimes(rows) == Mimes(p) + [x.mimetype];
        TotalsWithNewMime(p, x);
      }
    }
  }

  /** A row whose mimetype is new adds one group, holding exactly that row's size. */
  lemma TotalsWithNewMime(p: seq<FileAnalytics>, x: FileAnalytics)
    requires x.mimetype !in Mimes(p)
    ensures SumTotals(Totals(p + [x], Mimes(p) + [x.mimetype]))
            == SumTotals(Totals(p + [x], Mimes(p))) + x.size
  {
    var rows := p + [x];
    var ms := Mimes(p) + [x.mimetype];
    assert ms[..|ms| - 1] == Mimes(p);
    assert Totals(rows, ms)[..|ms| - 1] == Totals(rows, Mimes(p));
    assert rows[..|rows| - 1] == p;
    AbsentMimeHasNoSize(p, x.mimetype);
  }

  /** Adding a row `x` adds its size to the total of its mimetype, when that is listed. */
  lemma {:induction false} TotalsAfterRow(p: seq<FileAnalytics>, x: FileAnalytics, ms: seq<string>)
    requires Distinct(ms)
    ensures SumTotals(Totals(p + [x], ms))
            == SumTotals(Totals(p, ms)) + (if x.mimetype in ms then x.size else 0)
    decreases |ms|
  {
    if ms != [] {
      var front := ms[..|ms| - 1];
      var m := ms[|ms| - 1];
      assert (p + [x])[..|p|] == p;
      TotalsAfterRow(p, x, front);
      assert Totals(p + [x], ms)[..|ms| - 1] == Totals(p + [x], front);
      assert Totals(p, ms)[..|ms| - 1] == Totals(p, front);
      assert x.mimetype in ms <==> x.mimetype in front || x.mimetype == m;
      assert m !in front;
    }
  }

  lemma {:induction false} AbsentMimeHasNoSize(rows: seq<FileAnalytics>, m: string)
    requires forall i :: 0 <= i < |rows| ==> rows[i].mimetype != m
    ensures SizeOfMime(rows, m) == 0
  {
    if rows != [] {
      AbsentMimeHasNoSize(rows[..|rows| - 1], m);
    }
  }

  // ---------------------------------------------------------------------------
  // The ledger the file gateway writes to

  /** The calls the gateway makes on the ledger, in order. */
  datatype Call =
    | UploadCall(filename: string, originalName: string, mimetype: string, size: nat)
    | DownloadCall(filename: string, bytes: Num)

  class Ledger {
    var rows: seq<FileAnalytics>
    var nextId: nat
    ghost var calls: seq<Call>

    /** The table's constraints: unique keys, and ids that grow with the table. */
    ghost predicate Valid()
      reads this
    {
      && UniqueFilenames(rows)
      && NumericBandwidths(rows)
      && (forall i, j :: 0 <= i < j < |rows| ==> rows[i].id < rows[j].id)
      && (forall i :: 0 <= i < |rows| ==> rows[i].id < nextId)
    }

    constructor ()
      ensures Valid() && rows == [] && calls == []
    {
      rows := [];
      nextId := 1;
      calls := [];
    }

    /**
     * `trackUpload`: creates and saves a fresh row for the key. Saving fails,
     * leaving the table as it was, when the key is already present.
     */
    method TrackUpload(filename: string, originalName: string, mimetype: string, size: nat, now: Time)
      returns (saved: bool)
      requires Valid()
      modifies this
      ensures Valid()
      ensures saved <==> Find(old(rows), filename).None?
      ensures saved ==> rows == old(rows) + [NewRow(old(nextId), filename, originalName, mimetype, size, now)]
      ensures !saved ==> rows == old(rows)
      ensures nextId == if saved then old(nextId) + 1 else old(nextId)
      ensures calls == old(calls) + [UploadCall(filename, originalName, mimetype, size)]
    {
      calls := calls + [UploadCall(filename, originalName, mimetype, size)];
      var record := NewRow(nextId, filename, originalName, mimetype, size, now);
      saved := Find(rows, filename).None?;
      if saved {
        rows := rows + [record];
        nextId := nextId + 1;
      }
    }

    /**
     * `trackDownload`: reads the row, counts one more download of `bytes`
     * bytes at `now` and saves it; an unknown key changes nothing, and so does
     * a save the table rejects because the new bandwidth is NaN.
     */
    method TrackDownload(filename: string, bytes: Num, now: Time)
      requires Valid()
      modifies this
      ensures Valid() && nextId == old(nextId)
      ensures rows == Downloaded(old(rows), filename, bytes, now)
      ensures calls == old(calls) + [DownloadCall(filename, bytes)]
    {
      calls := calls + [DownloadCall(filename, bytes)];
      var found := Find(rows, filename);
      if found.Some? {
        var record := rows[found.value];
        record := record.(downloadCount := record.downloadCount + 1);
        record := record.(bandwidthUsage := Add(record.bandwidthUsage, bytes));
        record := record.(lastAccessTime := Some(now));
        if record.bandwidthUsage.Int? {
          rows := rows[found.value := record];
        }
      }
    }
  }
}

=== FILE: file_controller.dfy ===
/**
 * The gateway's HTTP controller for uploads and streaming: the upload size
 * ceiling, how the object key is taken from the request URL, which
 * `Content-Disposition` a type gets, and the headers and status of a
 * streamed response.
 */
module FileController {
  import opened Wrappers
  import opened JsNumber
  import opened JsText
  import opened AnalyticsEntity
  import opened AnalyticsService
  import opened ObjectStore
  import opened FileService

  /** The upload ceiling: 550 MiB. */
  const MaxUploadBytes: nat := 550 * 1024 * 1024

  /** The size validator accepts a file strictly smaller than the ceiling. */
  predicate WithinCeiling(f: UploadedFile) {
    f.size < MaxUploadBytes
  }

  /** The MIME prefixes served inline; every other type is offered as an attachment. */
  const InlineTypes: seq<string> := ["video/", "audio/", "image/", "application/pdf"]

  /** `inline` when the content type starts with one of the inline prefixes, else `attachment`. */
  function Disposition(contentType: string): (d: string)
    ensures d == "inline" || d == "attachment"
    ensures d == "inline" <==> exists i :: 0 <= i < |InlineTypes| && StartsWith(contentType, InlineTypes[i])
  {
    if exists i :: 0 <= i < |InlineTypes| && StartsWith(contentType, InlineTypes[i]) then "inline"
    else "attachment"
  }

  /**
   * The types served inline are exactly the ones stored under the images,
   * videos or audio folders, together with PDF documents.
   */
  lemma DispositionFollowsCategory(contentType: string)
    ensures Disposition(contentType) == "inline"
            <==> Category(contentType) in {"images", "videos", "audio"}
                 || StartsWith(contentType, "application/pdf")
  {
    var inline := exists i :: 0 <= i < |InlineTypes| && StartsWith(contentType, InlineTypes[i]);
    if StartsWith(contentType, "video/") { assert StartsWith(contentType, InlineTypes[0]); }
    if StartsWith(contentType, "audio/") { assert StartsWith(contentType, InlineTypes[1]); }
    if StartsWith(contentType, "image/") { assert StartsWith(contentType, InlineTypes[2]); }
    if StartsWith(contentType, "application/pdf") { assert StartsWith(contentType, InlineTypes[3]); }
    if inline {
      var i :| 0 <= i < |InlineTypes| && StartsWith(contentType, InlineTypes[i]);
      assert i == 0 || i == 1 || i == 2 || i == 3;
    }
  }

  /**
   * `decodeURIComponent(req.url.split(marker)[1])` before decoding: the text
   * between the first and the second occurrence of the marker, and the
   * string `undefined` when the marker does not occur.
   */
  function UrlKey(url: string, marker: string): (key: string)
    requires |marker| > 0
    ensures !Contains(url, marker) ==> key == "undefined"
    ensures Contains(url, marker) ==> !Contains(key, marker)
  {
    SplitOfContaining(url, marker);
    var part := Part(Split(url, marker), 1);
    if part.Some? then part.value else "undefined"
  }

  /** The route prefix of a stream request; everything after it is the encoded key. */
  const StreamMarker: string := "stream/"

  /** A key without `stream/` in it comes back whole from a stream URL. */
  lemma UrlKeyOfStreamUrl(prefix: string, key: string)
    requires !Contains(prefix, StreamMarker) && !Contains(key, StreamMarker)
    ensures UrlKey(prefix + StreamMarker + key, StreamMarker) == key
  {
    var url := prefix + StreamMarker + key;
    assert MatchAt(url, StreamMarker, |prefix|);
    forall j: nat | j < |prefix| ensures !MatchAt(url, StreamMarker, j) {
      if MatchAt(url, StreamMarker, j) {
        if j + |StreamMarker| <= |prefix| {
          assert url[j..j + |StreamMarker|] == prefix[j..j + |StreamMarker|];
          assert MatchAt(prefix, StreamMarker, j);
          ContainsIffMatch(prefix, StreamMarker);
        } else {
          assert url[|prefix|..|prefix| + |StreamMarker|] == StreamMarker;
          MarkerOverlap(url, prefix, j);
        }
      }
    }
    FirstMatchAt(url, StreamMarker, |prefix|);
    assert url[|prefix| + |StreamMarker|..] == key;
    SplitWithoutSeparator(key, StreamMarker);
  }

  /** `stream/` cannot start inside the prefix and run on into the marker that follows it. */
  lemma MarkerOverlap(url: string, prefix: string, j: nat)
    requires |prefix| + |StreamMarker| <= |url| && url[|prefix|..|prefix| + |StreamMarker|] == StreamMarker
    requires j < |prefix| < j + |StreamMarker|
    ensures !MatchAt(url, StreamMarker, j)
  {
    // a match at j would put the marker's only '/' inside the marker's first six characters
    var k := j + |StreamMarker| - 1;
    assert url[k] == StreamMarker[k - |prefix|];
  }

  /**
   * The response headers this controller sets, on the wire `Content-Type`,
   * `Content-Length`, `Content-Disposition`, `Accept-Ranges`,
   * `X-Content-Type-Options` and `Content-Range`.
   */
  datatype Header = ContentType | ContentLength | ContentDisposition | AcceptRanges | ContentTypeOptions | ContentRangeHeader

  /** The Express response a handler writes into: its headers and status. */
  class Response {
    var headers: map<Header, string>
    var status: int

    constructor ()
      ensures headers == map[] && status == 200
    {
      headers := map[];
      status := 200;
    }

    /** `res.set(fields)`: every given header is set, replacing an earlier value. */
    method Set(fields: map<Header, string>)
      modifies this`headers
      ensures headers == old(headers) + fields
    {
      headers := headers + fields;
    }

    /** `res.status(code)` */
    method Status(code: int)
      modifies this`status
      ensures status == code
    {
      status := code;
    }
  }

  /** JavaScript truthiness of an optional string: present and non-empty. */
  predicate Truthy(s: Option<string>) {
    s.Some? && s.value != ""
  }

  /**
   * The headers of a streamed response for the service's result and the
   * decoded key: type, length, disposition with the key's base name, range
   * support, no sniffing, and `Content-Range` only for a partial response.
   */
  function StreamHeaders(s: StreamResult, key: string): (h: map<Header, string>)
    ensures ContentType in h && ContentLength in h && ContentDisposition in h
    ensures AcceptRanges in h && ContentTypeOptions in h
    ensures ContentRangeHeader in h <==> Truthy(s.contentRange)
  {
    var h := map[ContentType := s.contentType]
             [ContentLength := NumToString(s.size)]
             [ContentDisposition := DispositionHeader(s.contentType, key)]
             [AcceptRanges := "bytes"]
             [ContentTypeOptions := "nosniff"];
    if Truthy(s.contentRange) then h[ContentRangeHeader := s.contentRange.value] else h
  }

  /** Every fixed header is present with its value; `Content-Range` is present exactly for a truthy range. */
  lemma StreamHeadersSet(s: StreamResult, key: string)
    ensures var h := StreamHeaders(s, key);
      && ContentType in h && ContentLength in h && ContentDisposition in h
      && AcceptRanges in h && ContentTypeOptions in h
      && h[ContentType] == s.contentType && h[ContentLength] == NumToString(s.size)
      && h[ContentDisposition] == DispositionHeader(s.contentType, key)
      && h[AcceptRanges] == "bytes" && h[ContentTypeOptions] == "nosniff"
      && (ContentRangeHeader in h <==> Truthy(s.contentRange))
      && (ContentRangeHeader in h ==> h[ContentRangeHeader] == s.contentRange.value)
  {
  }

  /** `<disposition>; filename="<base name of the key>"` */
  function DispositionHeader(contentType: string, key: string): string {
    Disposition(contentType) + "; filename=\"" + Basename(key) + "\""
  }

  /** The `Content-Length` header reads back as the reported size whenever that size is a number. */
  lemma ContentLengthReadsBack(s: StreamResult, key: string)
    requires s.size.Int?
    ensures ParseInt(StreamHeaders(s, key)[ContentLength]) == s.size
  {
    StreamHeadersSet(s, key);
  }

  /** A gateway key's disposition names the stored file, `uuid-sanitisedname`. */
  lemma DispositionNamesStoredFile(s: StreamResult, originalName: string, mimetype: string, uuid: string, iso: string)
    requires '/' !in DateFolder(iso) && '/' !in uuid
    ensures StreamHeaders(s, ObjectKey(originalName, mimetype, uuid, iso))[ContentDisposition]
            == Disposition(s.contentType) + "; filename=\"" + StoredName(originalName, uuid) + "\""
  {
    StreamHeadersSet(s, ObjectKey(originalName, mimetype, uuid, iso));
    ObjectKeySegments(originalName, mimetype, uuid, iso);
  }

  /**
   * `POST /file/upload`: a missing file, or one at or above the ceiling, is
   * rejected as a bad request before the service runs; otherwise the
   * service's outcome is returned.
   */
  method Upload(store: Store, ledger: Ledger, file: Option<UploadedFile>, uuid: string, iso: string,
                now: Time, encodeUri: string -> string)
    returns (r: UploadResult)
    requires ledger.Valid()
    modifies store`objects, ledger
    ensures ledger.Valid()
    ensures file.None? || !WithinCeiling(file.value) ==>
      r == UploadFailed(BadRequest) && store.objects == old(store.objects) && unchanged(ledger)
    ensures file.Some? && WithinCeiling(file.value) && PutOp in store.failing ==>
      r == UploadFailed(ServerError) && store.objects == old(store.objects) && unchanged(ledger)
    ensures file.Some? && WithinCeiling(file.value) && PutOp !in store.failing ==>
      var f := file.value;
      var key := ObjectKey(f.originalname, f.mimetype, uuid, iso);
      && store.objects == old(store.objects)[key := StoredObject(f.size, MetaMap(UploadMetadata(f)))]
      && ledger.calls == old(ledger.calls) + [UploadCall(key, f.originalname, f.mimetype, f.size)]
      && (if Find(old(ledger.rows), key).None?
          then r == Uploaded(UploadInfo(key, f.originalname, f.size, f.mimetype, "/file/download/" + encodeUri(key)))
               && ledger.rows == old(ledger.rows) + [NewRow(old(ledger.nextId), key, f.originalname, f.mimetype, f.size, now)]
          else r == UploadFailed(ServerError) && ledger.rows == old(ledger.rows))
    ensures r.Uploaded? ==> file.Some? && WithinCeiling(file.value) && r.info.size < MaxUploadBytes
    ensures r.Uploaded? ==>
      r.info.filename in store.objects && store.objects[r.info.filename].size == r.info.size
  {
    if file.None? || !WithinCeiling(file.value) {
      return UploadFailed(BadRequest);
    }
    r := UploadFile(store, ledger, file, uuid, iso, now, encodeUri);
  }

  /**
   * `GET /file/stream/<key>`: the key is cut from the URL and decoded (a decoding
   * failure is a server error), the service is asked for the stream, and the
   * headers and status are set from its answer. The outcome follows the
   * service's: a failing stat or read is a server error, a missing object is
   * not found, and otherwise the planned read is served and accounted. On any
   * failure the response is left untouched; on success the `Content-Length`
   * sent is the size the ledger was told about, and status 206 goes with
   * `Content-Range`.
   */
  method StreamFile(store: Store, ledger: Ledger, res: Response, url: string, range: Option<string>,
                    decodeUri: string -> Option<string>, now: Time)
    returns (r: Result<StreamResult, HttpError>)
    requires ledger.Valid()
    requires res != store as object && res != ledger as object
    modifies store`served, ledger, res
    ensures ledger.Valid()
    ensures r.Failure? ==> unchanged(res)
    ensures decodeUri(UrlKey(url, StreamMarker)).None? ==>
      r == Failure(ServerError) && unchanged(ledger) && store.served == old(store.served)
    ensures decodeUri(UrlKey(url, StreamMarker)).Some? ==>
      var key := decodeUri(UrlKey(url, StreamMarker)).value;
      && (r.Failure? ==> unchanged(ledger) && store.served == old(store.served))
      && (r.Success? ==>
           && key in store.objects
           && store.served == old(store.served) + [r.value.read] && r.value.read.key == key
           && ledger.calls == old(ledger.calls) + [DownloadCall(key, r.value.size)]
           && res.headers == old(res.headers) + StreamHeaders(r.value, key)
           && res.status == (if Truthy(r.value.contentRange) then 206 else old(res.status)))
    ensures decodeUri(UrlKey(url, StreamMarker)).Some? ==>
      StreamOutcome(store.objects, store.failing, decodeUri(UrlKey(url, StreamMarker)).value, range, now,
                    old(ledger.rows), ledger.rows, r)
  {
    var filename := UrlKey(url, StreamMarker);
    var decodedFilename := decodeUri(filename);
    if decodedFilename.None? {
      return Failure(ServerError);
    }
    var key := decodedFilename.value;
    r := GetFileStream(store, ledger, key, range, now);
    if r.Failure? {
      return;
    }
    res.Set(StreamHeaders(r.value, key));
    if Truthy(r.value.contentRange) {
      res.Status(206);
    }
  }
}

=== FILE: file_service.dfy ===
/**
 * The file gateway's service: how an upload's object key is derived, how a
 * `Range` header is resolved against an object's size, and the two
 * orchestrations that sequence the object store and the usage ledger
 * (`uploadFile`, `getFileStream`). The random UUID and the clock are inputs.
 */
module FileService {
  import opened Wrappers
  import opened JsNumber
  import opened JsText
  import opened AnalyticsEntity
  import opened AnalyticsService
  import opened ObjectStore

  // ---------------------------------------------------------------------------
  // Object-key derivation

  /** The characters `/[^a-zA-Z0-9.-]/g` leaves alone. */
  predicate IsSafeChar(c: char) {
    ('a' <= c <= 'z') || ('A' <= c <= 'Z') || ('0' <= c <= '9') || c == '.' || c == '-'
  }

  /** The characters a sanitised name is made of. */
  predicate IsKeyChar(c: char) {
    ('a' <= c <= 'z') || ('0' <= c <= '9') || c == '.' || c == '-'
  }

  /** `name.replace(/[^a-zA-Z0-9.-]/g, '-')` */
  function ReplaceUnsafe(name: string): (r: string)
    ensures |r| == |name|
    ensures forall i :: 0 <= i < |name| ==> r[i] == if IsSafeChar(name[i]) then name[i] else '-'
  {
    if name == [] then [] else [if IsSafeChar(name[0]) then name[0] else '-'] + ReplaceUnsafe(name[1..])
  }

  /**
   * The sanitised file name: every character outside `[A-Za-z0-9.-]` becomes
   * `-`, then the result is lower-cased. Only `a-z`, `0-9`, `.` and `-` remain,
   * one for each character of the name.
   */
  function Sanitize(name: string): (r: string)
    ensures |r| == |name|
    ensures forall i :: 0 <= i < |r| ==> IsKeyChar(r[i])
    ensures forall i :: 0 <= i < |name| && IsKeyChar(name[i]) ==> r[i] == name[i]
  {
    Lower(ReplaceUnsafe(name))
  }

  /** Sanitising a sanitised name changes nothing. */
  lemma SanitizeIdempotent(name: string)
    ensures Sanitize(Sanitize(name)) == Sanitize(name)
  {
    var once := Sanitize(name);
    var twice := Sanitize(once);
    assert forall i :: 0 <= i < |once| ==> twice[i] == once[i];
  }

  /** A sanitised name has no `/`, so it stays one path segment. */
  lemma SanitizeHasNoSlash(name: string)
    ensures '/' !in Sanitize(name)
  {
    var r := Sanitize(name);
    assert forall i :: 0 <= i < |r| ==> IsKeyChar(r[i]);
  }

  /**
   * The storage category of a mimetype: the first of the ordered rules that
   * matches (images, videos, audio, documents), else others.
   */
  function Category(mimetype: string): (c: string)
    ensures c in {"images", "videos", "audio", "documents", "others"}
  {
    if StartsWith(mimetype, "image/") then "images"
    else if StartsWith(mimetype, "video/") then "videos"
    else if StartsWith(mimetype, "audio/") then "audio"
    else if StartsWith(mimetype, "text/") || mimetype == "application/pdf"
         || Contains(mimetype, "word") || Contains(mimetype, "document") then "documents"
    else "others"
  }

  /** Media types go to the folder of their top-level type. */
  lemma CategoryOfMedia()
    ensures Category("image/png") == "images"
    ensures Category("video/mp4") == "videos"
    ensures Category("audio/mpeg") == "audio"
  {
    NotStartsWith("audio/mpeg", "image/", 0);
    NotStartsWith("audio/mpeg", "video/", 0);
  }

  /**
   * An `application/` type is a document when it is PDF or names a word or
   * document format (`application/msword`,
   * `application/vnd.openxmlformats-officedocument.wordprocessingml.document`).
   */
  lemma CategoryOfDocuments(mimetype: string)
    requires StartsWith(mimetype, "application/")
    requires mimetype == "application/pdf" || Contains(mimetype, "word") || Contains(mimetype, "document")
    ensures Category(mimetype) == "documents"
  {
    assert mimetype[0] == 'a' && mimetype[1] == 'p';
    NotStartsWith(mimetype, "image/", 0);
    NotStartsWith(mimetype, "video/", 0);
    NotStartsWith(mimetype, "audio/", 1);
  }

  /**
   * A type no rule names is filed under others: any `application/` type other
   * than PDF whose subtype has neither a `w` nor a `d` (so `application/zip`,
   * `application/json`, `application/octet-stream`).
   */
  lemma CategoryOfApplication(mimetype: string)
    requires StartsWith(mimetype, "application/") && mimetype != "application/pdf"
    requires 'w' !in mimetype && 'd' !in mimetype
    ensures Category(mimetype) == "others"
  {
    assert mimetype[0] == 'a' && mimetype[1] == 'p';
    NotStartsWith(mimetype, "image/", 0);
    NotStartsWith(mimetype, "video/", 0);
    NotStartsWith(mimetype, "audio/", 1);
    NotStartsWith(mimetype, "text/", 0);
    NotContainsWithoutChar(mimetype, "word", 'w');
    NotContainsWithoutChar(mimetype, "document", 'd');
  }

  /** The rules apply in order and the first match wins: an `image/` type naming a word format is an image. */
  lemma CategoryFirstMatchWins()
    ensures Category("image/x-wordperfect") == "images"
  {
  }

  /** `now.toISOString().split('T')[0]`: the text of the timestamp before its first `T`. */
  function DateFolder(iso: string): (d: string)
    ensures 'T' !in d && |d| <= |iso| && iso[..|d|] == d
    ensures d == iso || iso[|d|] == 'T'
  {
    SplitFirstPart(iso, 'T');
    Split(iso, "T")[0]
  }

  /** For an ISO-8601 timestamp `YYYY-MM-DDTHH:MM:SS.sssZ` the folder is its `YYYY-MM-DD` date. */
  lemma DateFolderOfIsoTimestamp(iso: string)
    requires |iso| > 10 && iso[10] == 'T' && 'T' !in iso[..10]
    ensures DateFolder(iso) == iso[..10]
  {
    assert iso == iso[..10] + "T" + iso[11..];
    SplitAfterFirst(iso[..10], "T", iso[11..]);
  }

  /** The last segment of the key: the UUID, a dash and the sanitised original name. */
  function StoredName(originalName: string, uuid: string): string {
    uuid + "-" + Sanitize(originalName)
  }

  /** The object key `date/category/uuid-sanitisedname` under which an upload is stored. */
  function ObjectKey(originalName: string, mimetype: string, uuid: string, iso: string): (k: string)
    ensures |k| == |DateFolder(iso)| + |Category(mimetype)| + |uuid| + |originalName| + 3
  {
    DateFolder(iso) + "/" + Category(mimetype) + "/" + StoredName(originalName, uuid)
  }

  lemma CategoryHasNoSlash(mimetype: string)
    ensures '/' !in Category(mimetype)
  {
    var c := Category(mimetype);
    assert c in {"images", "videos", "audio", "documents", "others"};
  }

  /** Three segments without `/`, joined with `/`, split back into the same three. */
  lemma ThreeSegments(a: string, b: string, c: string)
    requires '/' !in a && '/' !in b && '/' !in c && c != []
    ensures Split(a + "/" + b + "/" + c, "/") == [a, b, c]
    ensures Basename(a + "/" + b + "/" + c) == c
  {
    assert a + "/" + b + "/" + c == a + "/" + (b + "/" + c);
    SplitAfterFirst(a, "/", b + "/" + c);
    SplitAfterFirst(b, "/", c);
    SplitWithoutChar(c, '/');
    BasenameOfJoin(a + "/" + b, c);
  }

  /**
   * When the date and the UUID hold no `/`, the key has exactly three
   * `/`-separated segments: the date folder, the category, and the
   * UUID-prefixed sanitised name, which is also the key's base name.
   */
  lemma ObjectKeySegments(originalName: string, mimetype: string, uuid: string, iso: string)
    requires '/' !in DateFolder(iso) && '/' !in uuid
    ensures Split(ObjectKey(originalName, mimetype, uuid, iso), "/")
            == [DateFolder(iso), Category(mimetype), StoredName(originalName, uuid)]
    ensures Basename(ObjectKey(originalName, mimetype, uuid, iso)) == StoredName(originalName, uuid)
  {
    var file := StoredName(originalName, uuid);
    SanitizeHasNoSlash(originalName);
    assert file == uuid + "-" + Sanitize(originalName);
    assert '/' !in file && file != [];
    CategoryHasNoSlash(mimetype);
    ThreeSegments(DateFolder(iso), Category(mimetype), file);
  }

  /**
   * Two uploads whose UUIDs have the same length (as every v4 UUID has) get
   * the same key only when the UUIDs and the sanitised names agree: distinct
   * UUIDs give distinct keys.
   */
  lemma ObjectKeyDeterminesUuid(name1: string, mime1: string, uuid1: string, iso1: string,
                                name2: string, mime2: string, uuid2: string, iso2: string)
    requires '/' !in DateFolder(iso1) && '/' !in uuid1 && '/' !in DateFolder(iso2) && '/' !in uuid2
    requires |uuid1| == |uuid2|
    requires ObjectKey(name1, mime1, uuid1, iso1) == ObjectKey(name2, mime2, uuid2, iso2)
    ensures uuid1 == uuid2 && Sanitize(name1) == Sanitize(name2)
  {
    ObjectKeySegments(name1, mime1, uuid1, iso1);
    ObjectKeySegments(name2, mime2, uuid2, iso2);
    StoredNameDeterminesUuid(name1, uuid1, name2, uuid2);
  }

  lemma StoredNameDeterminesUuid(name1: string, uuid1: string, name2: string, uuid2: string)
    requires |uuid1| == |uuid2| && StoredName(name1, uuid1) == StoredName(name2, uuid2)
    ensures uuid1 == uuid2 && Sanitize(name1) == Sanitize(name2)
  {
    var f1, f2 := StoredName(name1, uuid1), StoredName(name2, uuid2);
    assert uuid1 == f1[..|uuid1|] && uuid2 == f2[..|uuid2|];
    assert Sanitize(name1) == f1[|uuid1| + 1..] && Sanitize(name2) == f2[|uuid2| + 1..];
  }

  // ---------------------------------------------------------------------------
  // Range resolution

  /** How a request is served: the whole object, or the window `start..end` of `length` bytes. */
  datatype Window = Full | Partial(start: Num, end: Num, length: Num)

  /** The `-`-separated fields of a `Range` header once its first `bytes=` is removed. */
  function RangeFields(header: string): (parts: seq<string>)
    ensures |parts| >= 1
    ensures forall i :: 0 <= i < |parts| ==> '-' !in parts[i]
    ensures Join(parts, "-") == ReplaceFirst(header, "bytes=", "")
  {
    var body := ReplaceFirst(header, "bytes=", "");
    SplitPartsLackSeparator(body, '-');
    JoinSplit(body, "-");
    Split(body, "-")
  }

  /**
   * The window `getFileStream` serves for an optional `Range` header against
   * an object of `size` bytes: `start` is `parseInt` of the first field, `end`
   * is `parseInt` of the second or `size - 1` when that is missing or empty. A
   * start at or beyond the size falls back to the whole object; nothing else is
   * checked, so neither field is negative but `end` may lie beyond the object
   * or before `start`.
   */
  function ResolveRange(range: Option<string>, size: nat): (w: Window)
    ensures range.None? || range == Some("") ==> w == Full
    ensures w.Partial? ==> w.length == Add(Sub(w.end, w.start), Int(1))
    ensures w.Partial? ==> w.start.NaN? || 0 <= w.start.value < size
    ensures w.Partial? ==> w.end.NaN? || w.end.value >= -1
  {
    if range.None? || range.value == "" then Full
    else WindowOf(RangeFields(range.value), size)
  }

  /** The window for the `-`-separated fields of a non-empty header. */
  function WindowOf(parts: seq<string>, size: nat): (w: Window)
    requires |parts| >= 1 && forall i :: 0 <= i < |parts| ==> '-' !in parts[i]
    ensures w.Partial? ==> w.length == Add(Sub(w.end, w.start), Int(1))
    ensures w.Partial? ==> w.start.NaN? || 0 <= w.start.value < size
    ensures w.Partial? ==> w.end.NaN? || w.end.value >= -1
  {
    var start := ParseInt(parts[0]);
    var end := if |parts| > 1 && parts[1] != "" then ParseInt(parts[1]) else Int(size - 1);
    if AtLeast(start, Int(size)) then Full
    else Partial(start, end, Add(Sub(end, start), Int(1)))
  }

  /** The `Content-Range` value of a partial response. */
  function ContentRange(start: Num, end: Num, size: nat): (r: string)
    ensures StartsWith(r, "bytes ")
    ensures |r| > |NatToString(size)| && r[|r| - |NatToString(size)| - 1..] == "/" + NatToString(size)
  {
    "bytes " + NumToString(start) + "-" + NumToString(end) + "/" + NatToString(size)
  }

  /** `bytes=<x>-<y>` with no `-` in `x` has `x` as its first field and the fields of `y` after it. */
  lemma FieldsOfHeader(x: string, y: string)
    requires '-' !in x
    ensures RangeFields("bytes=" + x + "-" + y) == [x] + Split(y, "-")
  {
    assert "bytes=" + x + "-" + y == "bytes=" + (x + "-" + y);
    ReplaceLeadingPrefix("bytes=", x + "-" + y);
    SplitAfterFirst(x, "-", y);
  }

  /** `bytes=<x>` with no `-` in `x` has the single field `x`. */
  lemma SingleFieldHeader(x: string)
    requires '-' !in x
    ensures RangeFields("bytes=" + x) == [x]
  {
    ReplaceLeadingPrefix("bytes=", x);
    SplitWithoutChar(x, '-');
  }

  /** The first `-`-field of a numeral followed by a non-digit is non-empty and reads as the number. */
  lemma FirstFieldOfNumeral(a: nat, rest: string)
    requires rest == [] || !IsDigit(rest[0])
    ensures Split(NatToString(a) + rest, "-")[0] != ""
    ensures ParseInt(Split(NatToString(a) + rest, "-")[0]) == Int(a)
  {
    var na := NatToString(a);
    var s := na + rest;
    match IndexOf(s, "-")
    case None =>
      ParseIntOfNumeral(a, rest);
    case Some(i) =>
      assert s[i] == '-';
      assert i >= |na|;
      assert s[..i] == na + rest[..i - |na|];
      ParseIntOfNumeral(a, rest[..i - |na|]);
  }

  /**
   * `bytes=<a>-<b><rest>` with `a` below the size (and `rest` not continuing
   * `b`, e.g. `,20-30` of a multi-range header) is served as the window
   * `a..b` of `b - a + 1` bytes; `b` is not clamped to the size.
   */
  lemma ClosedRange(a: nat, b: nat, rest: string, size: nat)
    requires a < size && (rest == [] || !IsDigit(rest[0]))
    ensures ResolveRange(Some("bytes=" + NatToString(a) + "-" + NatToString(b) + rest), size)
            == Partial(Int(a), Int(b), Int(b - a + 1))
  {
    var na, nb := NatToString(a), NatToString(b);
    ClosedFields(na, nb, rest);
    FirstFieldOfNumeral(b, rest);
    ParseIntOfNatToString(a);
  }

  /** The fields of `bytes=<x>-<y><rest>` start with `x` and the first `-`-field of `y + rest`. */
  lemma ClosedFields(x: string, y: string, rest: string)
    requires '-' !in x
    ensures var parts := RangeFields("bytes=" + x + "-" + y + rest);
      |parts| >= 2 && parts[0] == x && parts[1] == Split(y + rest, "-")[0]
  {
    assert "bytes=" + x + "-" + y + rest == "bytes=" + x + "-" + (y + rest);
    FieldsOfHeader(x, y + rest);
  }

  /** A multi-range header is read as its first range: `bytes=0-10,20-30` serves bytes 0..10. */
  lemma MultiRangeUsesFirstRange()
    ensures ResolveRange(Some("bytes=0-10,20-30"), 100) == Partial(Int(0), Int(10), Int(11))
  {
    assert NatToString(0) == "0" && NatToString(10) == "10";
    assert "bytes=0-10,20-30" == "bytes=" + NatToString(0) + "-" + NatToString(10) + ",20-30";
    ClosedRange(0, 10, ",20-30", 100);
  }

  /**
   * A multi-range header whose first range is open, `bytes=<a>-,…`, is not
   * read as that range: the second field starts with `,`, so the end and the
   * length are NaN.
   */
  lemma MultiRangeOpenFirstRange(a: nat, rest: string, size: nat)
    requires a < size
    ensures ResolveRange(Some("bytes=" + NatToString(a) + "-," + rest), size) == Partial(Int(a), NaN, NaN)
  {
    var parts := RangeFields("bytes=" + NatToString(a) + "-," + rest);
    OpenFirstFields(NatToString(a), rest);
    assert ParseInt(parts[1]) == NaN;
    ParseIntOfNatToString(a);
  }

  /** The fields of `bytes=<x>-,<rest>` start with `x` and a field that starts with `,`. */
  lemma OpenFirstFields(x: string, rest: string)
    requires '-' !in x
    ensures var parts := RangeFields("bytes=" + x + "-," + rest);
      |parts| >= 2 && parts[0] == x && parts[1] != [] && parts[1][0] == ','
  {
    var tail := "," + rest;
    assert "bytes=" + x + "-," + rest == "bytes=" + x + "-" + "" + tail;
    ClosedFields(x, "", tail);
    assert "" + tail == tail;
    SplitFirstPart(tail, '-');
  }

  /** The end is not clamped: `bytes=900-2000` on 1000 bytes asks the store for 1101 bytes. */
  lemma EndNotClamped()
    ensures ResolveRange(Some("bytes=900-2000"), 1000) == Partial(Int(900), Int(2000), Int(1101))
  {
    assert NatToString(900) == "900" && NatToString(2000) == "2000";
    assert "bytes=900-2000" == "bytes=" + NatToString(900) + "-" + NatToString(2000) + "";
    ClosedRange(900, 2000, "", 1000);
  }

  /** `bytes=<a>-` with `a` below the size is served as the rest of the object, `a..size-1`. */
  lemma OpenRange(a: nat, size: nat)
    requires a < size
    ensures ResolveRange(Some("bytes=" + NatToString(a) + "-"), size)
            == Partial(Int(a), Int(size - 1), Int(size - a))
  {
    var na := NatToString(a);
    assert "bytes=" + na + "-" == "bytes=" + na + "-" + "";
    FieldsOfHeader(na, "");
    SplitWithoutChar("", '-');
    ParseIntOfNatToString(a);
  }

  /** `bytes=<a>` without a `-` has no end field, so it too runs to size-1. */
  lemma SingleFieldRange(a: nat, size: nat)
    requires a < size
    ensures ResolveRange(Some("bytes=" + NatToString(a)), size)
            == Partial(Int(a), Int(size - 1), Int(size - a))
  {
    var na := NatToString(a);
    assert '-' !in na by {
      forall i | 0 <= i < |na| ensures na[i] != '-' {
        assert IsDigit(na[i]);
      }
    }
    SingleFieldHeader(na);
    ParseIntOfNatToString(a);
  }

  /** A start at or beyond the size is not an error: the whole object is served. */
  lemma StartBeyondSize(a: nat, rest: string, size: nat)
    requires a >= size && (rest == [] || !IsDigit(rest[0]))
    ensures ResolveRange(Some("bytes=" + NatToString(a) + rest), size) == Full
  {
    var na := NatToString(a);
    assert "bytes=" + na + rest == "bytes=" + (na + rest);
    ReplaceLeadingPrefix("bytes=", na + rest);
    FirstFieldOfNumeral(a, rest);
  }

  /**
   * The suffix form `bytes=-<n>` gives a NaN start, which passes the
   * `start >= size` guard: it is served as a partial window of NaN length.
   */
  lemma SuffixRangeHasNaNStart(n: nat, size: nat)
    ensures ResolveRange(Some("bytes=-" + NatToString(n)), size) == Partial(NaN, Int(n), NaN)
  {
    var nn := NatToString(n);
    SuffixFields(nn);
    ParseIntOfNatToString(n);
    assert ParseInt(nn) == Int(n);
  }

  /** `bytes=-<x>` has the fields `""` and `x`. */
  lemma SuffixFields(x: string)
    requires '-' !in x
    ensures RangeFields("bytes=-" + x) == ["", x]
  {
    assert "bytes=-" + x == "bytes=" + "" + "-" + x;
    FieldsOfHeader("", x);
    SplitWithoutChar(x, '-');
  }

  // ---------------------------------------------------------------------------
  // What one stream request does

  /** The read to issue, the size to report, the `Content-Range`, and the bytes to account. */
  datatype Plan = Plan(read: Read, size: Num, contentRange: Option<string>, tracked: Num)

  /**
   * The plan of `getFileStream` for an object of `size` bytes: a partial read
   * of `(start, length)` with its `Content-Range`, or a whole read reporting
   * the object's size. Either way the bytes accounted are the size reported.
   */
  function PlanStream(key: string, size: nat, range: Option<string>): (p: Plan)
    ensures p.read.key == key
    ensures p.tracked == p.size
    ensures p.contentRange.Some? <==> p.read.Slice?
    ensures p.read.Whole? ==> p.size == Int(size)
    ensures p.read.Slice? ==> p.read.length == p.size
  {
    match ResolveRange(range, size)
    case Full => Plan(Whole(key), Int(size), None, Int(size))
    case Partial(start, end, length) =>
      Plan(Slice(key, start, length), length, Some(ContentRange(start, end, size)), length)
  }

  /** Without a `Range` header the whole object is read, reported and accounted, with no `Content-Range`. */
  lemma PlanWithoutRange(key: string, size: nat)
    ensures PlanStream(key, size, None) == Plan(Whole(key), Int(size), None, Int(size))
  {
  }

  /** `bytes=<a>-<b>` with `a` below the size reads, reports and accounts `b - a + 1` bytes, with `Content-Range: bytes a-b/size`. */
  lemma PlanClosedRange(key: string, a: nat, b: nat, size: nat)
    requires a < size
    ensures PlanStream(key, size, Some("bytes=" + NatToString(a) + "-" + NatToString(b)))
            == Plan(Slice(key, Int(a), Int(b - a + 1)), Int(b - a + 1),
                    Some("bytes " + NatToString(a) + "-" + NatToString(b) + "/" + NatToString(size)),
                    Int(b - a + 1))
  {
    var header := "bytes=" + NatToString(a) + "-" + NatToString(b);
    assert header == header + [];
    ClosedRange(a, b, [], size);
  }

  // ---------------------------------------------------------------------------
  // The orchestrations

  /** The errors the service raises: `NotFoundException` and `InternalServerErrorException`. */
  datatype HttpError = BadRequest | FileNotFound | ServerError

  /** The part of an uploaded file the gateway reads: its name, declared type and size. */
  datatype UploadedFile = UploadedFile(originalname: string, mimetype: string, size: nat)

  datatype UploadInfo = UploadInfo(filename: string, originalname: string, size: nat, mimetype: string, url: string)

  datatype UploadResult = NoFile | Uploaded(info: UploadInfo) | UploadFailed(error: HttpError)

  /** The metadata stored with an upload: its declared type and its original name, verbatim. */
  function UploadMetadata(f: UploadedFile): seq<(string, string)> {
    [("Content-Type", f.mimetype), ("Original-Name", f.originalname)]
  }

  /** The stored metadata keeps the declared type and the unsanitised original name. */
  lemma StoredMetadata(f: UploadedFile)
    ensures MetaMap(UploadMetadata(f)) == map["content-type" := f.mimetype, "original-name" := f.originalname]
  {
    MetaMapOfTwo("Content-Type", f.mimetype, "Original-Name", f.originalname);
    LowerHeaderNames();
  }

  lemma MetaMapOfTwo(k1: string, v1: string, k2: string, v2: string)
    ensures MetaMap([(k1, v1), (k2, v2)]) == map[Lower(k1) := v1][Lower(k2) := v2]
  {
    var ps := [(k1, v1), (k2, v2)];
    assert ps[..1] == [(k1, v1)];
    assert ps[..1][..0] == [];
    assert MetaMap(ps[..1]) == MetaMap([])[Lower(k1) := v1];
  }

  /** `stat.metaData['content-type'] || 'application/octet-stream'` */
  function ContentTypeOf(metaData: map<string, string>): (t: string)
    ensures t != ""
  {
    if "content-type" in metaData && metaData["content-type"] != "" then metaData["content-type"]
    else "application/octet-stream"
  }

  /** A stream reports the type declared at upload, or `application/octet-stream` when none was declared. */
  lemma ContentTypeOfUpload(f: UploadedFile)
    ensures ContentTypeOf(MetaMap(UploadMetadata(f)))
            == if f.mimetype != "" then f.mimetype else "application/octet-stream"
  {
    StoredMetadata(f);
  }

  /**
   * `uploadFile`: derives the key, stores the object with its metadata and,
   * only once that succeeded, records the upload in the ledger under the same
   * key with the original name. Any failure of either step is a server error.
   */
  method UploadFile(store: Store, ledger: Ledger, file: Option<UploadedFile>, uuid: string, iso: string,
                    now: Time, encodeUri: string -> string)
    returns (r: UploadResult)
    requires ledger.Valid()
    modifies store`objects, ledger
    ensures ledger.Valid()
    ensures file.None? ==> r == NoFile && store.objects == old(store.objects) && unchanged(ledger)
    ensures file.Some? && PutOp in store.failing ==>
      r == UploadFailed(ServerError) && store.objects == old(store.objects) && unchanged(ledger)
    ensures file.Some? && PutOp !in store.failing ==>
      var f := file.value;
      var key := ObjectKey(f.originalname, f.mimetype, uuid, iso);
      && store.objects == old(store.objects)[key := StoredObject(f.size, MetaMap(UploadMetadata(f)))]
      && ledger.calls == old(ledger.calls) + [UploadCall(key, f.originalname, f.mimetype, f.size)]
      && (if Find(old(ledger.rows), key).None?
          then r == Uploaded(UploadInfo(key, f.originalname, f.size, f.mimetype, "/file/download/" + encodeUri(key)))
               && ledger.rows == old(ledger.rows) + [NewRow(old(ledger.nextId), key, f.originalname, f.mimetype, f.size, now)]
          else r == UploadFailed(ServerError) && ledger.rows == old(ledger.rows))
  {
    if file.None? {
      return NoFile;
    }
    var f := file.value;
    var sanitizedOriginalName := Sanitize(f.originalname);
    var filename := uuid + "-" + sanitizedOriginalName;
    var dateFolder := DateFolder(iso);
    var category := Category(f.mimetype);
    var objectKey := dateFolder + "/" + category + "/" + filename;
    assert objectKey == ObjectKey(f.originalname, f.mimetype, uuid, iso);
    var metaData := UploadMetadata(f);

    var err := store.PutObject(objectKey, f.size, metaData);
    if err.Some? {
      return UploadFailed(ServerError);
    }
    var saved := ledger.TrackUpload(objectKey, f.originalname, f.mimetype, f.size, now);
    if !saved {
      return UploadFailed(ServerError);
    }
    r := Uploaded(UploadInfo(objectKey, f.originalname, f.size, f.mimetype, "/file/download/" + encodeUri(objectKey)));
  }

  /** What `getFileStream` returns; the stream itself is the read the store was asked for. */
  datatype StreamResult = StreamResult(read: Read, size: Num, contentType: string, contentRange: Option<string>)

  /**
   * The answer `getFileStream` gives for `key` against a store holding
   * `objects` with the operations in `failing` failing, and the ledger table
   * it leaves (`rows`, from `rows0`): a failing stat is a server error, a
   * missing object is not found, a failing read is a server error, and
   * otherwise the planned read is served with the stored content type and the
   * row is bumped by the tracked bytes.
   */
  predicate StreamOutcome(objects: map<string, StoredObject>, failing: set<Op>, key: string, range: Option<string>,
                          now: Time, rows0: seq<FileAnalytics>, rows: seq<FileAnalytics>,
                          r: Result<StreamResult, HttpError>)
  {
    && (StatOp in failing ==> r == Failure(ServerError))
    && (StatOp !in failing && key !in objects ==> r == Failure(FileNotFound))
    && (StatOp !in failing && key in objects ==>
         var obj := objects[key];
         var p := PlanStream(key, obj.size, range);
         if (if p.read.Whole? then GetOp else GetPartialOp) in failing
         then r == Failure(ServerError)
         else
           && r == Success(StreamResult(p.read, p.size, ContentTypeOf(obj.metaData), p.contentRange))
           && rows == Downloaded(rows0, key, p.tracked, now))
  }

  /**
   * `getFileStream`: stats the object, issues the planned read and then
   * exactly one `trackDownload` of the size it reports. A missing object is a
   * not-found error and any other store failure a server error; neither
   * touches the ledger.
   */
  method GetFileStream(store: Store, ledger: Ledger, filename: string, range: Option<string>, now: Time)
    returns (r: Result<StreamResult, HttpError>)
    requires ledger.Valid()
    modifies store`served, ledger
    ensures ledger.Valid()
    ensures StatOp in store.failing ==>
      r == Failure(ServerError) && store.served == old(store.served) && unchanged(ledger)
    ensures StatOp !in store.failing && filename !in store.objects ==>
      r == Failure(FileNotFound) && store.served == old(store.served) && unchanged(ledger)
    ensures r.Failure? ==> store.served == old(store.served) && unchanged(ledger)
    ensures r.Success? ==>
      && filename in store.objects && r.value.read.key == filename
      && store.served == old(store.served) + [r.value.read]
      && ledger.calls == old(ledger.calls) + [DownloadCall(filename, r.value.size)]
    ensures StatOp !in store.failing && filename in store.objects ==>
      var obj := store.objects[filename];
      var p := PlanStream(filename, obj.size, range);
      if (if p.read.Whole? then GetOp else GetPartialOp) in store.failing
      then r == Failure(ServerError) && store.served == old(store.served) && unchanged(ledger)
      else
        && r == Success(StreamResult(p.read, p.size, ContentTypeOf(obj.metaData), p.contentRange))
        && store.served == old(store.served) + [p.read]
        && ledger.rows == Downloaded(old(ledger.rows), filename, p.tracked, now)
        && ledger.calls == old(ledger.calls) + [DownloadCall(filename, p.size)]
    ensures StreamOutcome(store.objects, store.failing, filename, range, now, old(ledger.rows), ledger.rows, r)
  {
    var stat := store.Stat(filename);
    if stat.Failure? {
      return Failure(if stat.error == NotFound then FileNotFound else ServerError);
    }
    var obj := stat.value;
    var contentRange: Option<string> := None;
    var contentLength := Int(obj.size);
    var err: Option<StoreError>;
    var window := ResolveRange(range, obj.size);
    if window.Partial? {
      var chunkSize := window.length;
      contentLength := chunkSize;
      err := store.GetPartialObject(filename, window.start, chunkSize);
      if err.Some? {
        return Failure(if err.value == NotFound then FileNotFound else ServerError);
      }
      contentRange := Some(ContentRange(window.start, window.end, obj.size));
      ledger.TrackDownload(filename, chunkSize, now);
    } else {
      err := store.GetObject(filename);
      if err.Some? {
        return Failure(if err.value == NotFound then FileNotFound else ServerError);
      }
      ledger.TrackDownload(filename, Int(obj.size), now);
    }
    var contentType := ContentTypeOf(obj.metaData);
    r := Success(StreamResult(if window.Partial? then Slice(filename, window.start, window.length) else Whole(filename),
                              contentLength, contentType, contentRange));
  }
}

=== FILE: js_number.dfy ===
/**
 * The JavaScript numbers this core computes with: integers (sizes, offsets,
 * counters) and NaN, which `parseInt` yields for a field without digits and
 * which then propagates through arithmetic. Also `parseInt(s, 10)`,
 * `Number.prototype.toString()` and the `x || 0` idiom.
 */
module JsNumber {

  /** A JavaScript number that is an integer or NaN. */
  datatype Num = NaN | Int(value: int)

  /** `a + b`: NaN if either operand is NaN. */
  function Add(a: Num, b: Num): Num {
    if a.Int? && b.Int? then Int(a.value + b.value) else NaN
  }

  /** `a - b`: NaN if either operand is NaN. */
  function Sub(a: Num, b: Num): Num {
    if a.Int? && b.Int? then Int(a.value - b.value) else NaN
  }

  /** `a >= b`: every comparison with NaN is false. */
  predicate AtLeast(a: Num, b: Num) {
    a.Int? && b.Int? && a.value >= b.value
  }

  /** `Number(x) || 0`: NaN and 0 are falsy and give 0. */
  function OrZero(x: Num): int {
    if x.Int? then x.value else 0
  }

  predicate IsDigit(c: char) {
    '0' <= c <= '9'
  }

  predicate AllDigits(s: string) {
    forall i :: 0 <= i < |s| ==> IsDigit(s[i])
  }

  /** The characters `parseInt` skips before the number: ECMAScript WhiteSpace and LineTerminator. */
  predicate IsWhiteSpace(c: char) {
    var k := c as int;
    k == 0x09 || k == 0x0A || k == 0x0B || k == 0x0C || k == 0x0D || k == 0x20 || k == 0xA0
    || k == 0x1680 || (0x2000 <= k <= 0x200A) || k == 0x2028 || k == 0x2029 || k == 0x202F
    || k == 0x205F || k == 0x3000 || k == 0xFEFF
  }

  function TrimStart(s: string): (r: string)
    ensures r == [] || !IsWhiteSpace(r[0])
  {
    if s != [] && IsWhiteSpace(s[0]) then TrimStart(s[1..]) else s
  }

  /** The length of the longest run of decimal digits at the start of `s`. */
  function LeadingDigits(s: string): (n: nat)
    ensures n <= |s| && AllDigits(s[..n])
    ensures n < |s| ==> !IsDigit(s[n])
  {
    if s == [] || !IsDigit(s[0]) then 0 else 1 + LeadingDigits(s[1..])
  }

  /** The value of a string of decimal digits. */
  function DigitsValue(ds: string): nat
    requires AllDigits(ds)
  {
    if ds == [] then 0
    else DigitsValue(ds[..|ds| - 1]) * 10 + (ds[|ds| - 1] as int - '0' as int)
  }

  /**
   * `parseInt(s, 10)`: leading white space is skipped, one optional sign is
   * read, then the longest run of decimal digits; NaN when that run is empty.
   */
  function ParseInt(s: string): (r: Num)
    ensures '-' !in s ==> r.NaN? || r.value >= 0
    ensures (forall i :: 0 <= i < |s| ==> !IsDigit(s[i])) ==> r == NaN
    ensures s != [] && !IsWhiteSpace(s[0]) && s[0] != '+' && s[0] != '-' && !IsDigit(s[0]) ==> r == NaN
  {
    TrimStartIsSuffix(s);
    var t := TrimStart(s);
    var negative := t != [] && t[0] == '-';
    var body := if t != [] && (t[0] == '+' || t[0] == '-') then t[1..] else t;
    var n := LeadingDigits(body);
    if n == 0 then NaN
    else if negative then Int(-(DigitsValue(body[..n]) as int))
    else Int(DigitsValue(body[..n]))
  }

  function DigitChar(d: nat): char
    requires d < 10
  {
    ('0' as int + d) as char
  }

  /** The decimal numeral of `n`, without leading zeros. */
  function NatToString(n: nat): (s: string)
    ensures |s| >= 1 && AllDigits(s)
    ensures s[0] != '-' && s[0] != '+' && !IsWhiteSpace(s[0])
    ensures s[0] == '0' ==> n == 0
  {
    if n < 10 then [DigitChar(n)] else NatToString(n / 10) + [DigitChar(n % 10)]
  }

  /** `x.toString()`; an integer's decimal numeral reads back as that integer. */
  function NumToString(x: Num): (r: string)
    ensures x.Int? ==> ParseInt(r) == x
  {
    match x
    case NaN => "NaN"
    case Int(v) =>
      if v < 0 then
        ParseIntOfNegated(-v);
        "-" + NatToString(-v)
      else
        ParseIntOfNatToString(v);
        NatToString(v)
  }

  /** Reading back the numeral of `n` gives `n`. */
  lemma {:induction false} DigitsValueOfNatToString(n: nat)
    ensures DigitsValue(NatToString(n)) == n
  {
    if n >= 10 {
      var s := NatToString(n);
      var front := NatToString(n / 10);
      assert s == front + [DigitChar(n % 10)];
      assert s[..|s| - 1] == front;
      DigitsValueOfNatToString(n / 10);
    }
  }

  /** A digit run stops exactly where the digits stop. */
  lemma {:induction false} LeadingDigitsOfDigitsThen(ds: string, rest: string)
    requires AllDigits(ds)
    requires rest == [] || !IsDigit(rest[0])
    ensures LeadingDigits(ds + rest) == |ds|
    decreases |ds|
  {
    if ds != [] {
      assert (ds + rest)[1..] == ds[1..] + rest;
      LeadingDigitsOfDigitsThen(ds[1..], rest);
    } else {
      assert ds + rest == rest;
    }
  }

  /**
   * `parseInt` reads back a decimal numeral followed by anything that does
   * not start with a digit: `parseInt("10,20") == 10`.
   */
  lemma ParseIntOfNumeral(n: nat, rest: string)
    requires rest == [] || !IsDigit(rest[0])
    ensures ParseInt(NatToString(n) + rest) == Int(n)
  {
    var ds := NatToString(n);
    var s := ds + rest;
    assert s[0] == ds[0];
    assert TrimStart(s) == s;
    LeadingDigitsOfDigitsThen(ds, rest);
    assert s[..|ds|] == ds;
    DigitsValueOfNatToString(n);
  }

  /** `parseInt` reads a decimal numeral back. */
  lemma ParseIntOfNatToString(n: nat)
    ensures ParseInt(NatToString(n)) == Int(n)
  {
    ParseIntOfNumeral(n, []);
    assert NatToString(n) + [] == NatToString(n);
  }

  /** `parseInt` reads a minus sign followed by a numeral as the negated number. */
  lemma ParseIntOfNegated(m: nat)
    ensures ParseInt("-" + NatToString(m)) == Int(-(m as int))
  {
    var ds := NatToString(m);
    var s := "-" + ds;
    assert TrimStart(s) == s;
    assert s[1..] == ds;
    LeadingDigitsOfDigitsThen(ds, []);
    assert ds + [] == ds;
    assert ds[..|ds|] == ds;
    DigitsValueOfNatToString(m);
  }

  lemma {:induction false} TrimStartIsSuffix(s: string)
    ensures |TrimStart(s)| <= |s| && TrimStart(s) == s[|s| - |TrimStart(s)|..]
  {
    if s != [] && IsWhiteSpace(s[0]) {
      TrimStartIsSuffix(s[1..]);
    }
  }
}

=== FILE: js_text.dfy ===
/**
 * The JavaScript string operations the gateway relies on, over Dafny strings:
 * `startsWith`, `includes`, `indexOf`, `split`, a single (non-global)
 * `replace`, ASCII lower-casing and POSIX `path.basename`.
 */
module JsText {
  import opened Wrappers

  /** `s` holds `p` starting at index `i`. */
  predicate MatchAt(s: string, p: string, i: nat) {
    i + |p| <= |s| && s[i..i + |p|] == p
  }

  /** `s.startsWith(p)` */
  predicate StartsWith(s: string, p: string) {
    |p| <= |s| && s[..|p|] == p
  }

  /** The first index at or after `from` where `p` occurs in `s` (`s.indexOf(p, from)`, None for -1). */
  function IndexOfFrom(s: string, p: string, from: nat): (r: Option<nat>)
    ensures r.Some? ==> from <= r.value && MatchAt(s, p, r.value)
    ensures r.Some? ==> forall j :: from <= j < r.value ==> !MatchAt(s, p, j)
    ensures r.None? ==> forall j :: from <= j ==> !MatchAt(s, p, j)
    decreases |s| - from
  {
    if from + |p| > |s| then None
    else if MatchAt(s, p, from) then Some(from)
    else IndexOfFrom(s, p, from + 1)
  }

  /** `s.indexOf(p)`, None standing for -1. */
  function IndexOf(s: string, p: string): Option<nat> {
    IndexOfFrom(s, p, 0)
  }

  /** `s.includes(p)` */
  predicate Contains(s: string, p: string) {
    IndexOf(s, p).Some?
  }

  lemma ContainsIffMatch(s: string, p: string)
    ensures Contains(s, p) <==> exists j :: MatchAt(s, p, j)
  {
    if !Contains(s, p) {
      forall j: nat ensures !MatchAt(s, p, j) {
        assert 0 <= j;
      }
    }
  }

  /** A one-character pattern occurs exactly when the character does. */
  lemma ContainsChar(s: string, c: char)
    ensures Contains(s, [c]) <==> c in s
  {
    ContainsIffMatch(s, [c]);
    if c in s {
      var j :| 0 <= j < |s| && s[j] == c;
      assert MatchAt(s, [c], j);
    }
    if Contains(s, [c]) {
      var j: nat :| MatchAt(s, [c], j);
      assert s[j] == c;
    }
  }

  /** No part of a split on a one-character separator holds that character. */
  lemma SplitPartsLackSeparator(s: string, c: char)
    ensures forall i :: 0 <= i < |Split(s, [c])| ==> c !in Split(s, [c])[i]
  {
    var parts := Split(s, [c]);
    forall i | 0 <= i < |parts| ensures c !in parts[i] {
      ContainsChar(parts[i], c);
    }
  }

  /** `s` does not start with `p` when they differ at some position of `p`. */
  lemma NotStartsWith(s: string, p: string, i: nat)
    requires i < |p| && (|p| > |s| || s[i] != p[i])
    ensures !StartsWith(s, p)
  {
    if |p| <= |s| {
      assert s[..|p|][i] == s[i];
    }
  }

  /** `s` does not contain `p` when some character of `p` is missing from `s`. */
  lemma NotContainsWithoutChar(s: string, p: string, c: char)
    requires c in p && c !in s
    ensures !Contains(s, p)
  {
    ContainsIffMatch(s, p);
  }

  /** `s.split(sep)` for a non-empty separator. */
  function Split(s: string, sep: string): (parts: seq<string>)
    requires |sep| > 0
    ensures |parts| >= 1
    ensures forall i :: 0 <= i < |parts| ==> !Contains(parts[i], sep)
    decreases |s|
  {
    match IndexOf(s, sep)
    case None => [s]
    case Some(i) =>
      PrefixBeforeFirstMatch(s, sep, i);
      [s[..i]] + Split(s[i + |sep|..], sep)
  }

  /** The text before the first occurrence of `sep` does not contain `sep`. */
  lemma PrefixBeforeFirstMatch(s: string, sep: string, i: nat)
    requires |sep| > 0 && IndexOf(s, sep) == Some(i)
    ensures !Contains(s[..i], sep)
  {
    forall j: nat | MatchAt(s[..i], sep, j)
      ensures false
    {
      assert j < i;
      assert s[..i][j..j + |sep|] == s[j..j + |sep|];
      assert MatchAt(s, sep, j);
    }
    ContainsIffMatch(s[..i], sep);
  }

  /** `parts.join(sep)`: the inverse of `Split`. */
  function Join(parts: seq<string>, sep: string): string
    requires |parts| >= 1
  {
    if |parts| == 1 then parts[0] else parts[0] + sep + Join(parts[1..], sep)
  }

  /** Splitting loses nothing: joining the parts back with the separator gives the input. */
  lemma {:induction false} JoinSplit(s: string, sep: string)
    requires |sep| > 0
    ensures Join(Split(s, sep), sep) == s
    decreases |s|
  {
    match IndexOf(s, sep)
    case None =>
    case Some(i) =>
      var rest := s[i + |sep|..];
      JoinSplit(rest, sep);
      SplitAtFirstMatch(s, sep, i);
      JoinCons(s[..i], Split(rest, sep), sep);
      assert s == s[..i] + sep + rest by {
        assert s[i..i + |sep|] == sep;
        assert s == s[..i] + s[i..i + |sep|] + rest;
      }
  }

  /** Splitting at the first occurrence of `sep`. */
  lemma SplitAtFirstMatch(s: string, sep: string, i: nat)
    requires |sep| > 0 && IndexOf(s, sep) == Some(i)
    ensures Split(s, sep) == [s[..i]] + Split(s[i + |sep|..], sep)
  {
  }

  lemma JoinCons(a: string, tail: seq<string>, sep: string)
    requires |tail| >= 1
    ensures Join([a] + tail, sep) == a + sep + Join(tail, sep)
  {
    assert ([a] + tail)[1..] == tail;
  }

  /** A string without the separator splits into itself alone. */
  lemma SplitWithoutSeparator(s: string, sep: string)
    requires |sep| > 0 && !Contains(s, sep)
    ensures Split(s, sep) == [s]
  {
  }

  /** A string without a one-character separator splits into itself alone. */
  lemma SplitWithoutChar(s: string, c: char)
    requires c !in s
    ensures Split(s, [c]) == [s]
  {
    ContainsChar(s, c);
    SplitWithoutSeparator(s, [c]);
  }

  /** Splitting `a + sep + b` on a one-character separator absent from `a` peels off `a`. */
  lemma SplitAfterFirst(a: string, sep: string, b: string)
    requires |sep| == 1 && sep[0] !in a
    ensures Split(a + sep + b, sep) == [a] + Split(b, sep)
  {
    var s := a + sep + b;
    assert MatchAt(s, sep, |a|);
    forall j: nat | j < |a| ensures !MatchAt(s, sep, j) {
      assert s[j] == a[j];
    }
    FirstMatchAt(s, sep, |a|);
    assert s[..|a|] == a;
    assert s[|a| + 1..] == b;
    assert Split(s, sep) == [s[..|a|]] + Split(s[|a| + 1..], sep);
  }

  /** When `p` occurs at `i` and nowhere before, `indexOf` finds `i`. */
  lemma FirstMatchAt(s: string, p: string, i: nat)
    requires MatchAt(s, p, i)
    requires forall j: nat :: j < i ==> !MatchAt(s, p, j)
    ensures IndexOf(s, p) == Some(i)
  {
    var r := IndexOf(s, p);
    assert r.None? ==> !MatchAt(s, p, i);
  }

  /** The first part of a split on `c`: a prefix of `s` without `c`, ending where `s` ends or at its first `c`. */
  lemma SplitFirstPart(s: string, c: char)
    ensures var p := Split(s, [c])[0];
      && c !in p && |p| <= |s| && s[..|p|] == p && (p == s || s[|p|] == c)
  {
    var p := Split(s, [c])[0];
    ContainsChar(p, c);
    match IndexOf(s, [c])
    case None =>
    case Some(i) =>
      assert p == s[..i];
      assert MatchAt(s, [c], i);
  }

  /** A string splits into at least two parts exactly when it holds the separator. */
  lemma SplitOfContaining(s: string, sep: string)
    requires |sep| > 0
    ensures Contains(s, sep) <==> |Split(s, sep)| >= 2
  {
    if !Contains(s, sep) {
      SplitWithoutSeparator(s, sep);
    }
  }

  /** The element `n` of a split, as JavaScript's `parts[n]` (None for `undefined`). */
  function Part(parts: seq<string>, n: nat): Option<string> {
    if n < |parts| then Some(parts[n]) else None
  }

  /** `s.replace(pattern, rep)` with a plain (non-global) pattern: only the first occurrence. */
  function ReplaceFirst(s: string, pattern: string, rep: string): (r: string)
    ensures !Contains(s, pattern) ==> r == s
    ensures |r| == if Contains(s, pattern) then |s| - |pattern| + |rep| else |s|
  {
    match IndexOf(s, pattern)
    case None => s
    case Some(i) => s[..i] + rep + s[i + |pattern|..]
  }

  /** A pattern at the very start is the occurrence replaced. */
  lemma ReplaceLeadingPrefix(pattern: string, rest: string)
    ensures ReplaceFirst(pattern + rest, pattern, "") == rest
  {
    var s := pattern + rest;
    assert MatchAt(s, pattern, 0);
    FirstMatchAt(s, pattern, 0);
    assert s[|pattern|..] == rest;
  }

  /** ASCII lower-casing of one character; every other character is kept. */
  function LowerChar(c: char): char {
    if 'A' <= c <= 'Z' then (c as int + 32) as char else c
  }

  function Lower(s: string): (r: string)
    ensures |r| == |s| && forall i :: 0 <= i < |s| ==> r[i] == LowerChar(s[i])
  {
    seq(|s|, i requires 0 <= i < |s| => LowerChar(s[i]))
  }

  /** `s` without its trailing `/` characters. */
  function TrimTrailingSlashes(s: string): (r: string)
    ensures |r| <= |s| && r == s[..|r|]
    ensures r == [] || r[|r| - 1] != '/'
  {
    if s != [] && s[|s| - 1] == '/' then TrimTrailingSlashes(s[..|s| - 1]) else s
  }

  /** The text after the last `/` of `s`. */
  function AfterLastSlash(s: string): (r: string)
    ensures '/' !in r
    ensures |r| <= |s| && r == s[|s| - |r|..]
  {
    if s == [] then []
    else if s[|s| - 1] == '/' then []
    else AfterLastSlash(s[..|s| - 1]) + [s[|s| - 1]]
  }

  /** POSIX `path.basename(p)`: the last non-empty `/`-separated segment, or "" when there is none. */
  function Basename(p: string): (r: string)
    ensures '/' !in r
  {
    AfterLastSlash(TrimTrailingSlashes(p))
  }

  lemma {:induction false} AfterLastSlashOfJoin(a: string, b: string)
    requires '/' !in b
    ensures AfterLastSlash(a + "/" + b) == b
    decreases |b|
  {
    var s := a + "/" + b;
    if b == [] {
      assert s[|s| - 1] == '/';
    } else {
      var b' := b[..|b| - 1];
      var c := b[|b| - 1];
      assert s[|s| - 1] == c;
      assert s[..|s| - 1] == a + "/" + b';
      AfterLastSlashOfJoin(a, b');
      assert AfterLastSlash(s) == AfterLastSlash(a + "/" + b') + [c];
      assert b == b' + [c];
    }
  }

  /** The base name of `dir/name` is `name`, for a non-empty name without `/`. */
  lemma BasenameOfJoin(dir: string, name: string)
    requires name != [] && '/' !in name
    ensures Basename(dir + "/" + name) == name
  {
    var s := dir + "/" + name;
    assert s[|s| - 1] == name[|name| - 1];
    assert TrimTrailingSlashes(s) == s;
    AfterLastSlashOfJoin(dir, name);
  }
}

=== FILE: object_store.dfy ===
/**
 * The object store the gateway talks to (a MinIO bucket), reduced to what the
 * gateway observes: each object's size and metadata, which operations are
 * currently failing, and the reads it has been asked to serve. Byte contents
 * and streams are not modelled.
 */
module ObjectStore {
  import opened Wrappers
  import opened JsNumber
  import JsText

  /** The two error classes the gateway tells apart: the code `NotFound`, and anything else. */
  datatype StoreError = NotFound | Unavailable

  datatype Op = StatOp | GetOp | GetPartialOp | PutOp

  /** What `statObject` reports: the size and the metadata, whose keys come back lower-cased. */
  datatype StoredObject = StoredObject(size: nat, metaData: map<string, string>)

  /** A read the store was asked to serve: the whole object, or `length` bytes from `offset`. */
  datatype Read = Whole(key: string) | Slice(key: string, offset: Num, length: Num)

  /** The metadata as the store keeps it: header names lower-cased, a later pair winning. */
  function MetaMap(pairs: seq<(string, string)>): (m: map<string, string>)
    ensures m.Keys == set i | 0 <= i < |pairs| :: JsText.Lower(pairs[i].0)
    ensures forall i :: 0 <= i < |pairs| && LastWithName(pairs, i) ==> m[JsText.Lower(pairs[i].0)] == pairs[i].1
  {
    if pairs == [] then map[]
    else
      var init, last := pairs[..|pairs| - 1], pairs[|pairs| - 1];
      var front := MetaMap(init);
      MetaMapStep(init, last, front);
      assert pairs == init + [last];
      front[JsText.Lower(last.0) := last.1]
  }

  /** Adding a last pair to the map of the others gives the map the contract of `MetaMap` describes. */
  lemma MetaMapStep(init: seq<(string, string)>, last: (string, string), front: map<string, string>)
    requires front.Keys == set i | 0 <= i < |init| :: JsText.Lower(init[i].0)
    requires forall i :: 0 <= i < |init| && LastWithName(init, i) ==> front[JsText.Lower(init[i].0)] == init[i].1
    ensures var pairs, m := init + [last], front[JsText.Lower(last.0) := last.1];
      && m.Keys == (set i | 0 <= i < |pairs| :: JsText.Lower(pairs[i].0))
      && forall i :: 0 <= i < |pairs| && LastWithName(pairs, i) ==> m[JsText.Lower(pairs[i].0)] == pairs[i].1
  {
    var pairs := init + [last];
    var n := |init|;
    var m := front[JsText.Lower(last.0) := last.1];
    forall k ensures k in m.Keys <==> k in (set i | 0 <= i < |pairs| :: JsText.Lower(pairs[i].0)) {
      if k in front.Keys {
        var i :| 0 <= i < n && JsText.Lower(init[i].0) == k;
        assert pairs[i] == init[i];
      }
      if k in (set i | 0 <= i < |pairs| :: JsText.Lower(pairs[i].0)) && k != JsText.Lower(last.0) {
        var i :| 0 <= i < |pairs| && JsText.Lower(pairs[i].0) == k;
        assert i < n && init[i] == pairs[i];
      }
    }
    assert pairs[n] == last;
    forall i | 0 <= i < |pairs| && LastWithName(pairs, i) ensures m[JsText.Lower(pairs[i].0)] == pairs[i].1 {
      if i < n {
        assert JsText.Lower(pairs[n].0) != JsText.Lower(pairs[i].0);
        assert init[i] == pairs[i];
        forall j | i < j < n ensures JsText.Lower(init[j].0) != JsText.Lower(init[i].0) {
          assert init[j] == pairs[j];
        }
        assert LastWithName(init, i);
      }
    }
  }

  /** No pair after the `i`th has the same lower-cased name. */
  predicate LastWithName(pairs: seq<(string, string)>, i: nat)
    requires i < |pairs|
  {
    forall j :: i < j < |pairs| ==> JsText.Lower(pairs[j].0) != JsText.Lower(pairs[i].0)
  }

  /** The two header names the gateway stores, as the store reports them back. */
  lemma LowerHeaderNames()
    ensures JsText.Lower("Content-Type") == "content-type"
    ensures JsText.Lower("Original-Name") == "original-name"
  {
    var l, t := JsText.Lower("Content-Type"), "content-type";
    forall i | 0 <= i < |t| ensures l[i] == t[i] {}
    var l', t' := JsText.Lower("Original-Name"), "original-name";
    forall i | 0 <= i < |t'| ensures l'[i] == t'[i] {}
  }

  class Store {
    var objects: map<string, StoredObject>
    var failing: set<Op>   // operations that currently fail with an error other than NotFound
    var served: seq<Read>  // the reads served so far, in order

    constructor (objects: map<string, StoredObject>, failing: set<Op>)
      ensures this.objects == objects && this.failing == failing && served == []
    {
      this.objects := objects;
      this.failing := failing;
      served := [];
    }

    /** `statObject(bucket, key)` */
    method Stat(key: string) returns (r: Result<StoredObject, StoreError>)
      ensures StatOp in failing ==> r == Failure(Unavailable)
      ensures StatOp !in failing && key !in objects ==> r == Failure(NotFound)
      ensures StatOp !in failing && key in objects ==> r == Success(objects[key])
    {
      if StatOp in failing {
        r := Failure(Unavailable);
      } else if key !in objects {
        r := Failure(NotFound);
      } else {
        r := Success(objects[key]);
      }
    }

    /** `getObject(bucket, key)`: on success the whole object is being read. */
    method GetObject(key: string) returns (err: Option<StoreError>)
      modifies this`served
      ensures GetOp in failing ==> err == Some(Unavailable)
      ensures GetOp !in failing && key !in objects ==> err == Some(NotFound)
      ensures err == None <==> GetOp !in failing && key in objects
      ensures served == if err == None then old(served) + [Whole(key)] else old(served)
    {
      if GetOp in failing {
        err := Some(Unavailable);
      } else if key !in objects {
        err := Some(NotFound);
      } else {
        err := None;
        served := served + [Whole(key)];
      }
    }

    /** `getPartialObject(bucket, key, offset, length)`: the arguments are passed through as given. */
    method GetPartialObject(key: string, offset: Num, length: Num) returns (err: Option<StoreError>)
      modifies this`served
      ensures GetPartialOp in failing ==> err == Some(Unavailable)
      ensures GetPartialOp !in failing && key !in objects ==> err == Some(NotFound)
      ensures err == None <==> GetPartialOp !in failing && key in objects
      ensures served == if err == None then old(served) + [Slice(key, offset, length)] else old(served)
    {
      if GetPartialOp in failing {
        err := Some(Unavailable);
      } else if key !in objects {
        err := Some(NotFound);
      } else {
        err := None;
        served := served + [Slice(key, offset, length)];
      }
    }

    /** `putObject(bucket, key, buffer, size, metaData)`: stores or replaces the object. */
    method PutObject(key: string, size: nat, metaData: seq<(string, string)>) returns (err: Option<StoreError>)
      modifies this`objects
      ensures err == None <==> PutOp !in failing
      ensures err != None ==> err == Some(Unavailable)
      ensures objects == if err == None then old(objects)[key := StoredObject(size, MetaMap(metaData))]
                         else old(objects)
    {
      if PutOp in failing {
        err := Some(Unavailable);
      } else {
        err := None;
        objects := objects[key := StoredObject(size, MetaMap(metaData))];
      }
    }
  }
}

=== FILE: wrappers.dfy ===
/** An optional value and a success-or-error result, shared by the modules of this model. */
module Wrappers {

  datatype Option<+T> = None | Some(value: T)

  datatype Result<+R, +E> = Success(value: R) | Failure(error: E)
}
